=== FILE: README.md ===
# SOS CISP — a Dafny model of the emergency-messaging demo

SOS CISP is a browser demo: citizens send emergency messages (text, audio, location, SOS) and police officers read them on a panel. This project models the parts of the code that have state or exact rules:

- **The local-storage application** (`assets/js/unified.js`):
  - the store of users, messages and statistics (`addMessage`, `findUser`, `verifyCredentials`, citizen registration, the filter and sort of `loadMessages`);
  - the session fields and the login, registration and logout handlers;
  - the screen navigator with its back-stack of at most ten screens;
  - the display helpers `formatTime`, `getStatusText` and `getMessageTypeIcon`.
- **The mock variant** (`assets/js/app.js`): hard-coded credentials, a fixed message list filtered without sorting, a navigator without history, and `sendCustomMessage`.
- **The audio recorder** (`assets/js/audio.js`): the recording-format fallback, the start and stop guards, the stop handler, clearing, the two blob consumers, `getFileExtension` and `formatDuration`.
- **The location tracker** (`assets/js/location.js`): tracking guards, the bounded history, the error messages, the null-location guards, the map URLs and the history statistics.
- **The submission endpoint** (`php/api/send_message.php`): method check, body validation with PHP's `empty()`, the row handed to the database, and the JSON response.

Everything is modelled with pure functions over immutable datatypes. The following are parameters of the functions that use them:

- clock readings (`Date.now()`, ISO dates);
- the set of screen ids present in the page;
- platform answers: microphone access, supported mime types, watch ids, object URLs, random draws, the insert result;
- the renderings of floating-point numbers.

Modules:

- `Wrappers`: `Option` and `Result`.
- `Decimal`: integer-to-text rendering and its inverse parser.
- `JsText`: JavaScript `trim` and `%`.
- `Navigator`, `Store`, `Sessions`, `UnifiedApp`, `Formatters`: the local-storage application.
- `MockApp`: the mock variant.
- `Variants`: how the two variants answer the same logins.
- `Audio`, `Location`, `SendMessage`: the recorder, the tracker and the endpoint.

## Model

| member | source | states |
|---|---|---|
| Store.BumpCounter | assets/js/unified.js:104-106 | the per-type counter moves only when its key exists and its value is non-zero; every other counter and the key set stay as they were |
| Store.AddMessage | assets/js/unified.js:85-102 | exactly one message is appended, carrying the caller's fields, status pending and the given date; its id reads back as the clock value; the total grows by one; users are untouched; a counter at zero stays at zero |
| Store.CountersStayZero | assets/js/unified.js:101-106 | from the default statistics, any series of additions leaves every per-type counter at 0, while the total and the message list grow by one per call and old messages keep their places |
| Store.SumDiffersFromTotal | assets/js/unified.js:28-36 | from the default statistics, after one or more messages the per-type counters sum to 0 and differ from the total |
| Store.BumpCounterFixed | assets/js/unified.js:104-106 | the corrected counter update bumps the counter of every known type, whatever its value |
| Store.FixedCountersCount | assets/js/unified.js:104-106 | with the corrected update, each known type's counter equals its starting value plus the number of added messages of that type |
| Store.FixedSumEqualsTotal | assets/js/unified.js:104-106 | with the corrected update, from the initial store and with only known types, the counters sum to the total |
| Store.FindFirst | assets/js/unified.js:120 | the first user in list order with a matching id, and none when no user has that id |
| Store.FindUser | assets/js/unified.js:118-121 | searches the police list for role `police` and the citizen list for any other role |
| Store.VerifyCredentials | assets/js/unified.js:124-133 | false for an unknown id; otherwise true exactly when the secret equals the code (police) or the password (any other role) of the first matching user |
| Store.RegisterCitizen | assets/js/unified.js:400-424 | a password mismatch is refused before the duplicate check; a known BI is refused; on success exactly one citizen with the submitted fields and kind citizen is appended, and nothing else changes |
| Store.RegisteredCitizenFound | assets/js/unified.js:413-423 | after a successful registration the new citizen is found by BI and accepted with the submitted password |
| Store.RegisterTwiceFails | assets/js/unified.js:405-410 | registering the same BI again is refused, even with a different form |
| Store.FilterType | assets/js/unified.js:478-481 | the filtered list holds exactly the stored messages of that type, each as often as stored |
| Store.SortNewestFirst | assets/js/unified.js:494-495 | the result is ordered by non-increasing timestamp and is a permutation of the input |
| Store.LoadMessages | assets/js/unified.js:474-495 | the shown list is newest first; with `all` it is a permutation of the stored messages and becomes the stored order; with any other filter it holds exactly the messages of that type and the stored list is untouched |
| Store.LoadFilteredMembers | assets/js/unified.js:478-481 | a message is shown by a filtered load exactly when it is stored and has the filter's type |
| Store.LoadAllPermutes | assets/js/unified.js:494-495 | sorting the stored list in place keeps its length and its members |
| Navigator.Record | assets/js/unified.js:1013-1021 | the screen ends on top; a screen already on top is not pushed again; the result is the newest entries of the old stack plus the screen, never more than ten |
| Navigator.ShowScreen | assets/js/unified.js:1006-1035 | an existing target becomes current and is recorded; a missing one falls back to access-selection with the history unchanged, or changes nothing when that is missing too; the bound and no-repeat invariant is preserved |
| Navigator.RecordKeepsNoRepeats | assets/js/unified.js:1013-1021 | recording a visit never puts a screen directly on top of itself |
| Navigator.GoBack | assets/js/unified.js:1038-1046 | going back preserves the bound and no-repeat invariant |
| Navigator.GoBackPopsTop | assets/js/unified.js:1039-1042 | with two or more entries, going back removes exactly the top entry and shows the one beneath without pushing it again |
| Navigator.GoBackShortHistory | assets/js/unified.js:1043-1045 | with at most one entry, going back shows access-selection |
| Navigator.ShowThenBack | assets/js/unified.js:1038-1046 | showing a new screen and going back returns to the screen on top of the back-stack, and restores the back-stack except for the oldest entry of a full stack |
| Navigator.FallbackSkippedByBack | assets/js/unified.js:1026-1033 | a fallback to access-selection changes the current screen but not the back-stack, so a later visit followed by going back lands on the old top of the stack, not on access-selection |
| Navigator.SplashFallback | assets/js/unified.js:321-327 | the later splash timer navigates only while the splash screen is still current |
| Navigator.RunKeepsValid | assets/js/unified.js:1013-1021 | any series of navigations keeps the back-stack within ten entries and free of immediate repeats |
| Sessions.SignOut | assets/js/unified.js:969-983 | logging out clears the authenticated flag, the current user and the user type |
| UnifiedApp.SelectAccess | assets/js/unified.js:330-343 | the access type is remembered and the matching login screen opened; an unknown type only sets the user type |
| UnifiedApp.Login | assets/js/unified.js:345-393 | an empty field is refused first; wrong credentials are refused with nothing changed; accepted credentials authenticate a user of that role with the stored name and open the landing screen; the store is never changed |
| UnifiedApp.PoliceLogin | assets/js/unified.js:345-368 | a police session starts only for an officer whose stored code matches |
| UnifiedApp.CitizenLogin | assets/js/unified.js:370-393 | a citizen session starts only for a citizen whose stored password matches |
| UnifiedApp.DemoPoliceLogin | assets/js/unified.js:16-26 | on a fresh start the seeded pair POL007/CISP2007 opens the police panel, and a wrong code leaves everything unchanged |
| UnifiedApp.Register | assets/js/unified.js:395-431 | the mismatch and duplicate errors leave the application unchanged; success stores the citizen, keeps the session and opens the citizen login |
| UnifiedApp.Logout | assets/js/unified.js:969-983 | the session is cleared, the store is kept and access-selection is shown |
| UnifiedApp.RegisterLoginLogout | assets/js/unified.js:395-431 | a newly registered citizen can log in with the submitted BI and password, and logging out ends that session |
| Formatters.FormatTime | assets/js/unified.js:615-627 | under a minute `Agora`, under an hour the whole minutes, under a day the whole hours, otherwise the locale date |
| Formatters.FormatTimeShowsMinutes | assets/js/unified.js:617-621 | in the minutes bucket the number shown is the floor of the elapsed minutes, between 1 and 59, and it reads back as that number |
| Formatters.FormatTimeShowsHours | assets/js/unified.js:617-624 | in the hours bucket the number shown is the floor of the elapsed hours, between 1 and 23, and it reads back as that number |
| Formatters.StatusText | assets/js/unified.js:606-613 | the three known statuses get their labels and every other status `Desconhecido` |
| Formatters.UnifiedIcon | assets/js/unified.js:541-549 | the question-mark icon exactly for types other than text, audio, location and sos |
| Formatters.MockIcon | assets/js/app.js:360-367 | the question-mark icon exactly for types other than text, audio and location |
| Formatters.IconsAgreeExceptSos | assets/js/app.js:360-367 | the two variants give the same icon for every type except sos, which only the mock variant shows as unknown |
| Decimal.ParseNatToString | assets/js/unified.js:86 | the decimal text of a clock value reads back as that value |
| JsText.TrimEmptyIff | assets/js/app.js:562-568 | trimming yields the empty string exactly when every character is JavaScript white space; otherwise it yields a slice of the input that starts and ends with a non-space character |
| MockApp.ShowScreen | assets/js/app.js:635-651 | an existing target becomes current, otherwise access-selection if it exists, otherwise nothing changes; this agrees with the local-storage navigator's current screen |
| MockApp.SelectAccess | assets/js/app.js:223-236 | the access type is remembered and the matching login screen opened |
| MockApp.PoliceLogin | assets/js/app.js:242-259 | accepted exactly for POL007/CISP2007; an empty field is refused first; a refusal changes nothing; on acceptance the session is authenticated as `Agente POL007`, the user type is kept and the police panel shown |
| MockApp.CitizenLogin | assets/js/app.js:266-283 | accepted exactly for 123456789/senha123; an empty field is refused first; a refusal changes nothing; on acceptance the session is authenticated as `João Silva`, the user type is kept and the citizen screen shown |
| MockApp.Register | assets/js/app.js:290-300 | a mismatch is refused; otherwise success is reported, the session is untouched and the citizen login is shown |
| MockApp.Logout | assets/js/app.js:600-614 | the session is cleared and access-selection is shown |
| MockApp.FilterKind | assets/js/app.js:333-337 | the filtered list keeps exactly the entries of that type, in their original order |
| MockApp.LoadMessages | assets/js/app.js:333-337 | with `all` the list as it is, with no sort; otherwise exactly the entries of that type in original order |
| MockApp.MockListNewestFirst | assets/js/app.js:184-214 | the fixed list is already in strictly decreasing timestamp order |
| MockApp.SendCustomMessage | assets/js/app.js:562-577 | white-space-only input gets the error feedback and is kept; any other input gets the success feedback and the field is cleared |
| Variants.PoliceDemoAgrees | assets/js/app.js:242-259 | both variants accept POL007/CISP2007 on a fresh start |
| Variants.CitizenDemoDiffers | assets/js/app.js:266-283 | the mock pair 123456789/senha123 is refused by the local-storage variant, whose seeded password 123456 the mock refuses in turn |
| Audio.SelectMime | assets/js/audio.js:35-47 | no format without the media API; otherwise webm/opus if supported, else mp4 if supported, else wav |
| Audio.FileExtension | assets/js/audio.js:298-304 | the first of webm, mp4, wav that the mime type contains, and `audio` exactly when it contains none |
| Audio.IncludesIff | assets/js/audio.js:300-302 | the `includes` test used by `getFileExtension` holds exactly when the searched text occurs as a contiguous slice at some index |
| Audio.SelectedMimeExtension | assets/js/audio.js:298-304 | each format the fallback can choose gets its own extension, never the generic one |
| Audio.NewRecorder | assets/js/audio.js:3-11 | a new recorder is not recording and has no recorder, chunks, blob or URL |
| Audio.ResumeStart | assets/js/audio.js:86-123 | once the stream has arrived it is kept whatever follows; the method succeeds exactly when the recorder is built and started, and then sets the flag, an empty chunk list, the start time and the timer, leaving the other fields alone; a throwing constructor or `start` fails with the stream kept |
| Audio.StartRecording | assets/js/audio.js:72-130 | run without another call overlapping it, succeeds exactly when not already recording, access is granted, a format exists and the recorder is built and started; on success the stream, an empty chunk list, the start time and the timer are set; a refusal before the stream is obtained changes nothing; a throwing constructor or `start` fails with the stream kept (and, after `start` throws, the recorder set and the chunks emptied) |
| Audio.ReentrantStartLosesStream | assets/js/audio.js:72-86 | a second call that passes the `isRecording` guard while the first call is awaiting replaces the first stream, which `stopRecording` then never releases |
| Audio.FailedStartKeepsStream | assets/js/audio.js:86-128 | after a start that fails once the stream is held, the stream stays set and `stopRecording` refuses, so nothing releases the microphone |
| Audio.OnData | assets/js/audio.js:93-97 | a non-empty chunk is appended and an empty one ignored |
| Audio.StopRecording | assets/js/audio.js:132-165 | refused with nothing changed when not recording or without a recorder; on success recording is off and the stream and timer are released, all else kept |
| Audio.AutoStop | assets/js/audio.js:116-120 | the timer does nothing once recording has stopped, and otherwise stops it |
| Audio.StartThenStop | assets/js/audio.js:132-152 | a recording started and then stopped leaves no recording, stream or timer |
| Audio.HandleRecordingStop | assets/js/audio.js:167-196 | the chunks become a blob of the chosen format with a fresh URL, and the duration since a truthy start time (else 0) is reported |
| Audio.ClearRecording | assets/js/audio.js:341-354 | chunks emptied, blob and start time null, a truthy URL revoked to null; the recorder, recording flag, stream, timer, format and a falsy URL stay as they were |
| Audio.ClearedCannotBeSent | assets/js/audio.js:434-437 | after clearing, both the emergency send and the analysis reject |
| Audio.SendAudioForEmergency | assets/js/audio.js:434-457 | rejects exactly when there is no blob; otherwise a success receipt whose id is `audio_` followed by text that reads back as the clock |
| Audio.AnalyzeAudio | assets/js/audio.js:460-475 | rejects exactly when there is no blob; otherwise the elapsed time and the voice flag from the random draw |
| Audio.FormatDuration | assets/js/audio.js:306-316 | `m:ss` with the seconds padded to two digits when there is a whole minute, else the truncated remainder followed by `s` |
| Audio.FormatDurationReadsBack | assets/js/audio.js:306-316 | for a non-negative duration the text reads back as its whole seconds, with the seconds field below 60 |
| Location.AddToHistory | assets/js/location.js:167-174 | the new location ends the history, which is the last ten entries of the old history plus it |
| Location.AddAllKeepsLast | assets/js/location.js:167-174 | after any series of additions the history is the last ten of all locations added |
| Location.StartTracking | assets/js/location.js:87-112 | nothing happens while tracking; without support an error and no change; otherwise tracking is on with the platform's watch id |
| Location.StopTracking | assets/js/location.js:114-121 | a truthy watch id is cleared and tracking turned off; otherwise nothing changes |
| Location.StartStop | assets/js/location.js:114-121 | start then stop ends tracking exactly when the watch id was non-zero |
| Location.HandleLocationSuccess | assets/js/location.js:123-140 | the fix becomes current and is appended to the bounded history |
| Location.FixesTrack | assets/js/location.js:123-140 | after a series of fixes the current location is the last fix and the history is the last ten fixes |
| Location.LocationErrorMessage | assets/js/location.js:142-165 | the three known error codes get their messages, and the unknown message is used exactly for other codes |
| Location.ErrorMessagesDistinct | assets/js/location.js:145-157 | the message identifies which known code occurred |
| Location.FormatLocation | assets/js/location.js:273-282 | the unavailable text without a location; otherwise the two coordinates, with an accuracy suffix exactly when the accuracy is non-zero |
| Location.GoogleMapsUrl | assets/js/location.js:299-303 | null exactly without a location; otherwise the Google Maps query URL for the coordinates |
| Location.OpenStreetMapUrl | assets/js/location.js:305-309 | null exactly without a location; otherwise the OpenStreetMap URL for the coordinates at zoom 15 |
| Location.LocationForEmergency | assets/js/location.js:284-296 | fails exactly without a current location; otherwise its coordinates and accuracy, the given time and the source tag |
| Location.LocationStats | assets/js/location.js:391-414 | null exactly on an empty history; otherwise the count, the first and last entries and the time between them |
| Location.ConsumersAfterFix | assets/js/location.js:123-140 | after a fix arrives, the emergency payload carries its coordinates and accuracy, the location text is not the unavailable text, the map links are built from it, and the statistics end at it |
| Location.StatsAfterFixes | assets/js/location.js:391-414 | after fixes from the start, the statistics count at most ten entries and end at the current location |
| SendMessage.FirstMissing | php/api/send_message.php:26-31 | the first empty required field in checking order, with every earlier field filled, or none when all are filled |
| SendMessage.RowOf | php/api/send_message.php:35-44 | the row copies the five required fields, takes coordinates or null, and is pending |
| SendMessage.Handle | php/api/send_message.php:9-64 | OPTIONS ends with no body; other non-POST methods get 405; an empty body gets 400; an insert is attempted exactly for a non-empty body with all required fields; 200 with a body exactly when that insert succeeds; a failed insert gets 400; the row handed to the insert is the one built from the body |
| SendMessage.MissingFieldReported | php/api/send_message.php:26-31 | a body lacking a required field gets 400 naming the first empty field in checking order |
| SendMessage.AcceptedRowCopiesBody | php/api/send_message.php:46-56 | an accepted request stores all five submitted fields and the body's coordinates (null when absent) as pending, and answers success with the insert id |
| SendMessage.ZeroContentRejected | php/api/send_message.php:28-29 | a body whose other required fields are filled but whose content is the string `"0"` is refused with 400 naming content, because `empty()` counts `"0"` as missing |

## Left out

- `MockApp.Logout`: the screen change assumes the menu overlay exists. The mock `toggleMenu` and `toggleCitizenMenu` (assets/js/app.js:580-588) do not check for it, so without it logout throws after clearing the session and before showing access-selection.
- Rendering and notifications are not modelled. This covers HTML templates, notification elements, menu toggles and the list markup: they are presentation only. `Store.LoadMessages` assumes the message-list element exists: without it `loadMessages` returns before filtering or sorting (assets/js/unified.js:469-470), so a load of `all` then leaves the stored order alone.
- `localStorage` persistence is not modelled: saving, loading and the quota clear-and-retry are host I/O. The store starts from the seeded defaults.
- Timers are plain transitions. The splash delays, the 2-second redirect after registration, the auto-stop delay and notification fades are not timed.
- The panel loaders a login triggers are not composed into the login transitions. Among them, the police panel's load of `all` sorts the stored list; that sort is modelled on its own as `Store.LoadMessages`.
- The unified callers of `addMessage` (SOS, text, audio and location senders) are not modelled; only `addMessage` itself is.
- Platform APIs are parameters or omitted: getUserMedia, the permission query, MediaRecorder events other than data and stop, Audio playback, downloads, share and clipboard.
- Floating-point code is not modelled: `calculateDistance`, `deg2rad`, `formatFileSize`, the total distance and average accuracy of `getLocationStats`, and `toFixed` or number-to-text rendering. Rendering of numbers is a function parameter.
- Location.FormatLocation: the rounded accuracy suffix is only stated to be present or absent, because its digits come from floating-point rounding.
- Location.GoogleMapsUrl, Location.OpenStreetMapUrl: the coordinate text is whatever the given rendering returns, because JavaScript's number-to-text conversion is not modelled.
- JavaScript object keys inherited from the prototype (`constructor`, `toString`, …) are treated as absent in the counter, icon and status-text lookups (`Formatters.StatusText` answers `Desconhecido` for them, where `getStatusText('constructor')` returns the `Object` function).
- `get_messages.php`, `database_manager.php` and `getDatabase` are not part of this model; the insert is an oracle, and a database exception is not modelled.
- `Store.SortNewestFirst` is a stable insertion sort; stability itself is not stated as a property.
- `Formatters.FormatTime`: the `toLocaleDateString('pt-BR')` text for older messages is a parameter.
- `Audio.AnalyzeAudio`: the random volume is carried through but not constrained.

## Findings

| source | as written | input that shows it | evidently intended | confidence | as-written member | corrected member |
|---|---|---|---|---|---|---|
| assets/js/unified.js:104-106 | `if (counter) counter++` bumps a per-type counter only when it is already non-zero, and every counter starts at 0 | from the default statistics, one `addMessage` of type `sos` leaves `messages_by_type.sos` at 0 while `total_messages` becomes 1 | every message of a known type increments its type's counter, so the counters sum to the total | not executed | Store.SumDiffersFromTotal | Store.FixedSumEqualsTotal |

The statistics record keeps `messages_by_type`, one counter per message type, next to `total_messages` (assets/js/unified.js:28-36), so each counter is evidently meant to count the messages of its type.

`Store.AddMessage` models the code as written. `Store.AddMessageFixed` uses the corrected update `Store.BumpCounterFixed`, and `Store.FixedCountersCount` and `Store.FixedSumEqualsTotal` prove the intended property about it.

=== FILE: audio.dfy ===
/**
  The recorder of assets/js/audio.js (`AudioManager`): the recording-format
  fallback, the start/stop guards, the stop handler that turns the chunks
  into a blob, clearing, the two blob-consuming entry points, and the two
  pure helpers `getFileExtension` and `formatDuration`.

  The media platform (permission query, `getUserMedia`, `MediaRecorder`,
  object URLs, timers, `Date.now`, `Math.random`) is reduced to parameters
  that say what the platform answered.
*/
module Audio {
  import opened Wrappers
  import Decimal
  import JsText

  const WebmOpus: string := "audio/webm;codecs=opus"
  const Mp4: string := "audio/mp4"
  const Wav: string := "audio/wav"

  /**
    `recordingOptions.mimeType` after `setupAudioServices`: absent when the
    media API is missing (the method returns before setting any option);
    otherwise webm/opus, replaced by mp4 when webm is unsupported, replaced
    in turn by wav when mp4 is unsupported too (wav is kept even when it is
    not supported either).
  */
  function SelectMime(mediaAvailable: bool, supported: set<string>): (r: Option<string>)
    ensures r.None? <==> !mediaAvailable
    ensures mediaAvailable && WebmOpus in supported ==> r == Some(WebmOpus)
    ensures mediaAvailable && WebmOpus !in supported && Mp4 in supported ==> r == Some(Mp4)
    ensures mediaAvailable && WebmOpus !in supported && Mp4 !in supported ==> r == Some(Wav)
  {
    if !mediaAvailable then None
    else
      var first := if WebmOpus in supported then WebmOpus else Mp4;
      var second := if first in supported then first else Wav;
      Some(second)
  }

  /** `s.includes(sub)`: `sub` occurs in `s` as a contiguous slice. */
  predicate Includes(s: string, sub: string)
    decreases |s|
  {
    if |sub| > |s| then false
    else if s[..|sub|] == sub then true
    else |s| > 0 && Includes(s[1..], sub)
  }

  /** A matching slice anywhere in `s` makes `Includes` hold. */
  lemma {:induction false} SliceIncluded(s: string, sub: string, i: nat)
    requires i + |sub| <= |s| && s[i..i + |sub|] == sub
    ensures Includes(s, sub)
    decreases i
  {
    if s[..|sub|] != sub {
      assert i > 0;
      assert s[1..][i - 1..i - 1 + |sub|] == s[i..i + |sub|];
      SliceIncluded(s[1..], sub, i - 1);
    }
  }

  /** Conversely, when `Includes` holds, a matching slice exists; it is returned. */
  lemma {:induction false} IncludesHasSlice(s: string, sub: string) returns (i: nat)
    requires Includes(s, sub)
    ensures i + |sub| <= |s| && s[i..i + |sub|] == sub
    decreases |s|
  {
    if s[..|sub|] == sub {
      i := 0;
    } else {
      var j := IncludesHasSlice(s[1..], sub);
      assert s[1..][j..j + |sub|] == s[j + 1..j + 1 + |sub|];
      i := j + 1;
    }
  }

  /** `sub` occurs in `s` starting at index `i`. */
  predicate SliceAt(s: string, sub: string, i: nat)
  {
    i + |sub| <= |s| && s[i..i + |sub|] == sub
  }

  /** `Includes` holds exactly when `sub` occurs in `s` at some index. */
  lemma IncludesIff(s: string, sub: string)
    ensures Includes(s, sub) <==> exists i: nat :: SliceAt(s, sub, i)
  {
    if Includes(s, sub) {
      var i := IncludesHasSlice(s, sub);
      assert SliceAt(s, sub, i);
    }
    forall i: nat | SliceAt(s, sub, i)
      ensures Includes(s, sub)
    {
      SliceIncluded(s, sub, i);
    }
  }

  /**
    `getFileExtension()`: the first of `webm`, `mp4`, `wav` contained in the
    mime type, and `audio` when none is.
  */
  function FileExtension(mime: string): (r: string)
    ensures Includes(mime, "webm") ==> r == "webm"
    ensures !Includes(mime, "webm") && Includes(mime, "mp4") ==> r == "mp4"
    ensures !Includes(mime, "webm") && !Includes(mime, "mp4") && Includes(mime, "wav") ==> r == "wav"
    ensures r == "audio" <==> !Includes(mime, "webm") && !Includes(mime, "mp4") && !Includes(mime, "wav")
  {
    if Includes(mime, "webm") then "webm"
    else if Includes(mime, "mp4") then "mp4"
    else if Includes(mime, "wav") then "wav"
    else "audio"
  }

  /**
    Each format the fallback can choose has its own extension: webm for
    webm/opus, mp4 for mp4 and wav for wav, never the generic `audio`.
  */
  lemma SelectedMimeExtension(mediaAvailable: bool, supported: set<string>)
    requires mediaAvailable
    ensures var m := SelectMime(mediaAvailable, supported).value;
            && (m == WebmOpus ==> FileExtension(m) == "webm")
            && (m == Mp4 ==> FileExtension(m) == "mp4")
            && (m == Wav ==> FileExtension(m) == "wav")
  {
    if SelectMime(mediaAvailable, supported).value == WebmOpus { WebmExtension(); }
    else if SelectMime(mediaAvailable, supported).value == Mp4 { Mp4Extension(); }
    else { WavExtension(); }
  }

  lemma WebmExtension()
    ensures FileExtension(WebmOpus) == "webm"
  {
    assert WebmOpus[6..10] == "webm";
    SliceIncluded(WebmOpus, "webm", 6);
  }

  lemma Mp4Extension()
    ensures FileExtension(Mp4) == "mp4"
  {
    assert 'e' in "webm" && 'e' !in Mp4;
    MissingCharNotIncluded(Mp4, "webm", 'e');
    assert Mp4[6..9] == "mp4";
    SliceIncluded(Mp4, "mp4", 6);
  }

  lemma WavExtension()
    ensures FileExtension(Wav) == "wav"
  {
    assert 'e' in "webm" && 'e' !in Wav;
    MissingCharNotIncluded(Wav, "webm", 'e');
    assert 'p' in "mp4" && 'p' !in Wav;
    MissingCharNotIncluded(Wav, "mp4", 'p');
    assert Wav[6] == 'w' && Wav[7] == 'a' && Wav[8] == 'v';
    assert Wav[6..9] == "wav";
    SliceIncluded(Wav, "wav", 6);
  }

  /** A string lacking one of the characters of `sub` does not contain `sub`. */
  lemma {:induction false} MissingCharNotIncluded(s: string, sub: string, c: char)
    requires c in sub && c !in s
    ensures !Includes(s, sub)
    decreases |s|
  {
    if |sub| <= |s| && |s| > 0 {
      MissingCharNotIncluded(s[1..], sub, c);
    }
  }

  /** `padStart(2, '0')`. */
  function Pad2(s: string): (r: string)
    ensures |s| < 2 ==> r == "0" + s
    ensures |s| >= 2 ==> r == s
  {
    if |s| < 2 then "0" + s else s
  }

  /**
    `formatDuration(ms)`: whole seconds by floor division, whole minutes by
    floor division of those, and JavaScript's truncating remainder for the
    seconds left over; `m:ss` when there is at least one minute, `Ns`
    otherwise.
  */
  function FormatDuration(ms: int): (r: string)
    ensures var seconds := ms / 1000;
            seconds / 60 > 0 ==>
              r == Decimal.NatToString(seconds / 60) + ":" + Pad2(Decimal.NatToString(seconds % 60))
    ensures var seconds := ms / 1000;
            seconds / 60 <= 0 ==> r == Decimal.IntToString(JsText.JsRem(seconds, 60)) + "s"
  {
    var seconds := ms / 1000;
    var minutes := seconds / 60;
    var remaining := JsText.JsRem(seconds, 60);
    if minutes > 0 then Decimal.NatToString(minutes) + ":" + Pad2(Decimal.IntToString(remaining))
    else Decimal.IntToString(remaining) + "s"
  }

  /** A two-digit field parses back to its value, leading zero or not. */
  lemma Pad2Parses(n: nat)
    requires n < 60
    ensures |Pad2(Decimal.NatToString(n))| == 2
    ensures Decimal.ParseNat(Pad2(Decimal.NatToString(n))) == Some(n)
  {
    Decimal.ParseNatToString(n);
    var s := Decimal.NatToString(n);
    if n < 10 {
      var p := Pad2(s);
      assert p == ['0', s[0]];
      assert p[..1] == ['0'];
      assert p[..1][..0] == [];
      assert s[..0] == [];
      assert Decimal.DigitsValue(p) == Decimal.DigitsValue(s);
    } else {
      assert 10 <= n < 100;
      assert Decimal.NatToString(n / 10) == [Decimal.DigitChar(n / 10)];
    }
  }

  /**
    For a non-negative duration the displayed text reads back as the elapsed
    whole seconds: `m:ss` with `m * 60 + ss` equal to them and `ss` below
    60, or `Ns` with `N` equal to them when under a minute.
  */
  lemma FormatDurationReadsBack(ms: int)
    requires ms >= 0
    ensures var r := FormatDuration(ms);
            ms >= 60000 ==>
              exists a, b :: r == a + ":" + b && |b| == 2
                && Decimal.ParseNat(b).Some? && Decimal.ParseNat(b).value < 60
                && Decimal.ParseNat(a).Some?
                && Decimal.ParseNat(a).value * 60 + Decimal.ParseNat(b).value == ms / 1000
    ensures var r := FormatDuration(ms);
            ms < 60000 ==>
              exists a :: r == a + "s" && Decimal.ParseNat(a) == Some(ms / 1000)
  {
    if ms >= 60000 {
      MinutesReadBack(ms);
    } else {
      SecondsReadBack(ms);
    }
  }

  lemma MinutesReadBack(ms: int)
    requires ms >= 60000
    ensures exists a, b :: FormatDuration(ms) == a + ":" + b && |b| == 2
              && Decimal.ParseNat(b).Some? && Decimal.ParseNat(b).value < 60
              && Decimal.ParseNat(a).Some?
              && Decimal.ParseNat(a).value * 60 + Decimal.ParseNat(b).value == ms / 1000
  {
    var seconds := ms / 1000;
    var a := Decimal.NatToString(seconds / 60);
    var b := Pad2(Decimal.NatToString(seconds % 60));
    Decimal.ParseNatToString(seconds / 60);
    Pad2Parses(seconds % 60);
    assert FormatDuration(ms) == a + ":" + b;
  }

  lemma SecondsReadBack(ms: int)
    requires 0 <= ms < 60000
    ensures exists a :: FormatDuration(ms) == a + "s" && Decimal.ParseNat(a) == Some(ms / 1000)
  {
    Decimal.ParseNatToString(ms / 1000);
    assert FormatDuration(ms) == Decimal.NatToString(ms / 1000) + "s";
  }

  /** A chunk handed over by `ondataavailable`; only its size matters here. */
  datatype Chunk = Chunk(size: nat)

  /** The blob the stop handler assembles. */
  datatype Blob = Blob(chunks: seq<Chunk>, mime: string)

  /**
    The fields of `AudioManager`: `mime` is `recordingOptions.mimeType`,
    `hasRecorder` whether `mediaRecorder` is set; the stream, the timer and
    the object URL are handles the platform gives out.
  */
  datatype Recorder = Recorder(
    mime: Option<string>,
    hasRecorder: bool,
    chunks: seq<Chunk>,
    isRecording: bool,
    blob: Option<Blob>,
    url: Option<string>,
    stream: Option<nat>,
    startTime: Option<int>,
    timer: Option<nat>)

  /** The constructor, with the format `setupAudioServices` chose. */
  function NewRecorder(mime: Option<string>): (r: Recorder)
    ensures !r.isRecording && !r.hasRecorder && r.blob.None? && r.url.None? && r.chunks == []
  {
    Recorder(mime, false, [], false, None, None, None, None, None)
  }

  /** What the platform answers to the permission check and `getUserMedia`. */
  datatype MicAccess = Denied | CaptureFailed | Granted(stream: nat)

  /**
    What the `MediaRecorder` calls do once a stream is held: the constructor
    throws (an unsupported mime type, which the wav fallback can choose),
    `start` throws, or both succeed.
  */
  datatype RecorderAnswer = ConstructorThrows | StartThrows | Started

  /**
    The part of `startRecording()` that runs once `getUserMedia` has
    answered with `stream` (audio.js:86-123): the stream is kept whatever
    follows; a throwing constructor or `start` ends in the catch and the
    method fails (when only `start` threw, the recorder exists and the
    chunks are emptied); otherwise the chunks are emptied, the recording
    flag and start time are set and the auto-stop timer is armed. Nothing
    here looks at `isRecording`: the guard ran before the awaits.
  */
  function ResumeStart(r: Recorder, stream: nat, answer: RecorderAnswer, now: int, timerId: nat)
    : (res: (Recorder, bool))
    ensures res.0.stream == Some(stream)
    ensures res.1 <==> answer.Started?
    ensures answer.ConstructorThrows? ==> res.0 == r.(stream := Some(stream))
    ensures answer.StartThrows? ==> res.0 == r.(stream := Some(stream), hasRecorder := true, chunks := [])
    ensures answer.Started? ==> && res.0.isRecording && res.0.hasRecorder && res.0.chunks == []
                                && res.0.startTime == Some(now) && res.0.timer == Some(timerId)
                                && res.0.(isRecording := r.isRecording, hasRecorder := r.hasRecorder,
                                          chunks := r.chunks, stream := r.stream, startTime := r.startTime,
                                          timer := r.timer) == r
  {
    match answer
    case ConstructorThrows => (r.(stream := Some(stream)), false)
    case StartThrows => (r.(stream := Some(stream), hasRecorder := true, chunks := []), false)
    case Started =>
      (r.(stream := Some(stream), hasRecorder := true, chunks := [], isRecording := true,
          startTime := Some(now), timer := Some(timerId)), true)
  }

  /**
    `startRecording()` run to completion without interruption: refused
    without any change while a recording is in progress, when permission is
    denied, or when capture fails (which it does when the media API is
    missing); otherwise `ResumeStart` with the granted stream. Returns the
    new state and the method's result.
  */
  function StartRecording(r: Recorder, access: MicAccess, answer: RecorderAnswer, now: int, timerId: nat)
    : (res: (Recorder, bool))
    ensures r.isRecording ==> res == (r, false)
    ensures access.Denied? || access.CaptureFailed? || r.mime.None? ==> res == (r, false)
    ensures res.1 <==> !r.isRecording && access.Granted? && r.mime.Some? && answer.Started?
    ensures res.1 ==> && res.0.isRecording && res.0.hasRecorder && res.0.chunks == []
                      && res.0.stream == Some(access.stream) && res.0.startTime == Some(now)
                      && res.0.timer == Some(timerId)
                      && res.0.blob == r.blob && res.0.url == r.url && res.0.mime == r.mime
    ensures !r.isRecording && access.Granted? && r.mime.Some? && answer.ConstructorThrows? ==>
              res == (r.(stream := Some(access.stream)), false)
    ensures !r.isRecording && access.Granted? && r.mime.Some? && answer.StartThrows? ==>
              res == (r.(stream := Some(access.stream), hasRecorder := true, chunks := []), false)
  {
    if r.isRecording then (r, false)
    else match access
      case Denied => (r, false)
      case CaptureFailed => (r, false)
      case Granted(stream) =>
        if r.mime.None? then (r, false)
        else ResumeStart(r, stream, answer, now, timerId)
  }

  /**
    Two overlapping calls of the async `startRecording()`: the second call
    reads `isRecording` while the first is still awaiting the permission
    check or `getUserMedia`, so both pass the guard. When the first
    completes and the second then resumes, the second stream replaces the
    first in `stream`, the only field `stopRecording` releases, so the first
    stream is never stopped; the first call's timer is replaced too.
  */
  lemma ReentrantStartLosesStream(r: Recorder, s1: nat, s2: nat, now1: int, now2: int, t1: nat, t2: nat)
    requires !r.isRecording && r.mime.Some? && s1 != s2
    ensures var (r1, ok1) := StartRecording(r, Granted(s1), Started, now1, t1);
            var (r2, ok2) := ResumeStart(r1, s2, Started, now2, t2);
            && ok1 && r1.stream == Some(s1)
            && ok2 && r2.isRecording && r2.stream == Some(s2) && r2.timer == Some(t2)
            && r2.stream != Some(s1)
            && StopRecording(r2, false).0.stream.None?
  {
  }

  /**
    A start that fails after the stream is obtained keeps the stream, and
    `stopRecording` (the only place that releases it) refuses because no
    recording is in progress, so the microphone stays held.
  */
  lemma FailedStartKeepsStream(r: Recorder, stream: nat, answer: RecorderAnswer, now: int, timerId: nat,
                               stopThrows: bool)
    requires !r.isRecording && r.mime.Some? && !answer.Started?
    ensures var (r1, started) := StartRecording(r, Granted(stream), answer, now, timerId);
            !started && !r1.isRecording && r1.stream == Some(stream)
            && StopRecording(r1, stopThrows) == (r1, false)
  {
  }

  /** `ondataavailable`: a chunk is kept only when it is not empty. */
  function OnData(r: Recorder, c: Chunk): (res: Recorder)
    ensures c.size > 0 ==> res.chunks == r.chunks + [c]
    ensures c.size == 0 ==> res == r
    ensures res.(chunks := r.chunks) == r
  {
    if c.size > 0 then r.(chunks := r.chunks + [c]) else r
  }

  /**
    `stopRecording()`: refused without change when not recording or when no
    recorder exists, and when the recorder's `stop` throws; otherwise the
    recording flag is cleared and the stream and timer are released.
  */
  function StopRecording(r: Recorder, stopThrows: bool): (res: (Recorder, bool))
    ensures !r.isRecording || !r.hasRecorder ==> res == (r, false)
    ensures res.1 <==> r.isRecording && r.hasRecorder && !stopThrows
    ensures !res.1 ==> res.0 == r
    ensures res.1 ==> && !res.0.isRecording && res.0.stream.None? && res.0.timer.None?
                      && res.0.(isRecording := true, stream := r.stream, timer := r.timer) == r
  {
    if !r.isRecording || !r.hasRecorder then (r, false)
    else if stopThrows then (r, false)
    else (r.(isRecording := false, stream := None, timer := None), true)
  }

  /**
    The auto-stop timer, which fires five minutes (300000 ms) after a start:
    it stops the recording only if one is still in progress.
  */
  function AutoStop(r: Recorder, stopThrows: bool): (res: Recorder)
    ensures !r.isRecording ==> res == r
    ensures r.isRecording && r.hasRecorder && !stopThrows ==> !res.isRecording
  {
    if r.isRecording then StopRecording(r, stopThrows).0 else r
  }

  /** A recording started and then stopped leaves no recording, stream or timer behind. */
  lemma StartThenStop(r: Recorder, stream: nat, now: int, timerId: nat)
    requires !r.isRecording && r.mime.Some?
    ensures var (r1, started) := StartRecording(r, Granted(stream), Started, now, timerId);
            var (r2, stopped) := StopRecording(r1, false);
            started && stopped && !r2.isRecording && r2.stream.None? && r2.timer.None?
            && r2.startTime == Some(now)
  {
  }

  /** The state handed to `recordingComplete` listeners. */
  datatype Completed = Completed(blob: Blob, url: string, duration: int, notice: string)

  /** JavaScript truthiness of `recordingStartTime`: present and not zero. */
  predicate StartTimeSet(start: Option<int>)
  {
    start.Some? && start.value != 0
  }

  /**
    `handleRecordingStop()` (the recorder's `onstop`): the collected chunks
    become a blob of the chosen type, a fresh object URL replaces the old
    one, and the duration since the start time (0 without one) is reported.
  */
  function HandleRecordingStop(r: Recorder, now: int, newUrl: string): (res: (Recorder, Completed))
    requires r.mime.Some?
    ensures res.0.blob == Some(Blob(r.chunks, r.mime.value))
    ensures res.0.url == Some(newUrl)
    ensures res.1.duration == if StartTimeSet(r.startTime) then now - r.startTime.value else 0
    ensures res.1.notice == "Gravação concluída (" + FormatDuration(res.1.duration) + ")"
    ensures res.0.(blob := r.blob, url := r.url) == r
  {
    var blob := Blob(r.chunks, r.mime.value);
    var duration := if StartTimeSet(r.startTime) then now - r.startTime.value else 0;
    (r.(blob := Some(blob), url := Some(newUrl)),
     Completed(blob, newUrl, duration, "Gravação concluída (" + FormatDuration(duration) + ")"))
  }

  /**
    `clearRecording()`: the chunks are emptied and blob and start time set
    to null; the URL is revoked and set to null when it is truthy.
  */
  function ClearRecording(r: Recorder): (res: Recorder)
    ensures res.chunks == [] && res.blob.None? && res.startTime.None?
    ensures r.url.Some? && r.url.value != "" ==> res.url.None?
    ensures !(r.url.Some? && r.url.value != "") ==> res.url == r.url
    ensures res.(chunks := r.chunks, blob := r.blob, url := r.url, startTime := r.startTime) == r
  {
    var url := if r.url.Some? && r.url.value != "" then None else r.url;
    r.(chunks := [], blob := None, url := url, startTime := None)
  }

  /** After clearing, both blob consumers fail (see `SendAudioForEmergency`, `AnalyzeAudio`). */
  lemma ClearedCannotBeSent(r: Recorder, now: int, v: real, w: real)
    ensures SendAudioForEmergency(ClearRecording(r), now).Err?
    ensures AnalyzeAudio(ClearRecording(r), now, v, w).Err?
  {
  }

  /** The object `sendAudioForEmergency` resolves with. */
  datatype Receipt = Receipt(success: bool, message: string, audioId: string)

  /**
    `sendAudioForEmergency()`: rejects when no blob exists; otherwise
    resolves with a success receipt whose id is `audio_` followed by the
    clock reading.
  */
  function SendAudioForEmergency(r: Recorder, now: int): (res: Result<Receipt, string>)
    ensures res.Err? <==> r.blob.None?
    ensures res.Err? ==> res.error == "Nenhuma gravação disponível"
    ensures res.Ok? ==> res.value.success && res.value.message == "Áudio enviado com sucesso"
    ensures res.Ok? ==> |res.value.audioId| > 6 && res.value.audioId[..6] == "audio_"
    ensures res.Ok? && now >= 0 ==> Decimal.ParseNat(res.value.audioId[6..]) == Some(now)
  {
    if r.blob.None? then Err("Nenhuma gravação disponível")
    else
      var digits := Decimal.IntToString(now);
      assert now >= 0 ==> Decimal.ParseNat(digits) == Some(now) by {
        if now >= 0 { Decimal.ParseNatToString(now); }
      }
      assert ("audio_" + digits)[6..] == digits;
      Ok(Receipt(true, "Áudio enviado com sucesso", "audio_" + digits))
  }

  /** The object `analyzeAudio` resolves with. */
  datatype Analysis = Analysis(duration: int, volume: real, hasVoice: bool, quality: string, noiseLevel: string)

  /**
    `analyzeAudio()`: rejects when no blob exists; otherwise the elapsed
    time since the start (0 without one), and a volume and voice flag drawn
    from the two random readings, which are given.
  */
  function AnalyzeAudio(r: Recorder, now: int, volumeDraw: real, voiceDraw: real): (res: Result<Analysis, string>)
    ensures res.Err? <==> r.blob.None?
    ensures res.Err? ==> res.error == "Nenhuma gravação disponível para análise"
    ensures res.Ok? ==> res.value.duration == (if StartTimeSet(r.startTime) then now - r.startTime.value else 0)
    ensures res.Ok? ==> (res.value.hasVoice <==> voiceDraw > 0.3)
    ensures res.Ok? ==> res.value.quality == "good" && res.value.noiseLevel == "low"
  {
    if r.blob.None? then Err("Nenhuma gravação disponível para análise")
    else
      var duration := if StartTimeSet(r.startTime) then now - r.startTime.value else 0;
      Ok(Analysis(duration, volumeDraw * 100.0, voiceDraw > 0.3, "good", "low"))
  }
}

=== FILE: decimal.dfy ===
/**
  Decimal rendering of integers, as JavaScript's `Number.prototype.toString()`
  and template-literal interpolation produce it for integral values of
  magnitude below 10^21 (every `Date.now()` reading is; larger values switch
  to exponent notation there), together with the inverse parser that serves
  as its partner.
*/
module Decimal {
  import opened Wrappers

  predicate IsDigit(c: char)
  {
    '0' <= c <= '9'
  }

  function DigitChar(d: nat): (c: char)
    requires d < 10
    ensures IsDigit(c)
    ensures c as int - '0' as int == d
  {
    ['0', '1', '2', '3', '4', '5', '6', '7', '8', '9'][d]
  }

  function DigitValue(c: char): (d: nat)
    requires IsDigit(c)
    ensures d < 10
  {
    c as int - '0' as int
  }

  predicate AllDigits(s: string)
  {
    forall i :: 0 <= i < |s| ==> IsDigit(s[i])
  }

  /** The canonical decimal numeral of `n`: digits only, no leading zero. */
  function NatToString(n: nat): (s: string)
    ensures 1 <= |s|
    ensures AllDigits(s)
    ensures |s| > 1 ==> s[0] != '0'
    ensures n < 10 <==> |s| == 1
  {
    if n < 10 then [DigitChar(n)]
    else NatToString(n / 10) + [DigitChar(n % 10)]
  }

  /** Rendering of a signed integer: a minus sign before the magnitude. */
  function IntToString(i: int): (s: string)
    ensures i >= 0 ==> s == NatToString(i)
    ensures i < 0 ==> s == "-" + NatToString(-i)
  {
    if i < 0 then "-" + NatToString(-i) else NatToString(i)
  }

  /** Value of a non-empty string of digits, most significant first. */
  function DigitsValue(s: string): nat
    requires AllDigits(s)
  {
    if |s| == 0 then 0
    else DigitsValue(s[..|s| - 1]) * 10 + DigitValue(s[|s| - 1])
  }

  /** Parser for numerals: `None` on the empty string or a non-digit. */
  function ParseNat(s: string): (r: Option<nat>)
    ensures r.Some? <==> 1 <= |s| && AllDigits(s)
  {
    if 1 <= |s| && AllDigits(s) then Some(DigitsValue(s)) else None
  }

  /** Rendering a number and parsing it back gives the number. */
  lemma {:induction false} ParseNatToString(n: nat)
    ensures ParseNat(NatToString(n)) == Some(n)
  {
    var s := NatToString(n);
    if n < 10 {
      assert s == [DigitChar(n)];
      assert s[..0] == [];
    } else {
      ParseNatToString(n / 10);
      assert s[..|s| - 1] == NatToString(n / 10);
      assert DigitsValue(s) == DigitsValue(NatToString(n / 10)) * 10 + n % 10;
    }
  }

  /** Distinct numbers render to distinct numerals. */
  lemma NatToStringInjective(m: nat, n: nat)
    requires NatToString(m) == NatToString(n)
    ensures m == n
  {
    ParseNatToString(m);
    ParseNatToString(n);
  }
}

=== FILE: formatters.dfy ===
/**
  The pure display helpers of both application variants: relative message
  times (`formatTime`), status labels (`getStatusText`) and message-type
  icons (`getMessageTypeIcon`).
*/
module Formatters {
  import Decimal
  import opened Wrappers

  const MinuteMs: int := 60000
  const HourMs: int := 3600000
  const DayMs: int := 86400000

  /** Floor division by minutes and then by hours is floor division by hours. */
  lemma HoursFromMinutes(diff: int)
    ensures (diff / MinuteMs) / 60 == diff / HourMs
  {
    var m := diff / MinuteMs;
    var h := m / 60;
    assert diff == m * MinuteMs + diff % MinuteMs;
    assert m == h * 60 + m % 60;
    assert diff == h * HourMs + ((m % 60) * MinuteMs + diff % MinuteMs);
    assert 0 <= (m % 60) * MinuteMs + diff % MinuteMs < HourMs;
  }

  lemma FloorBounds(x: int, d: int)
    requires d > 0
    ensures x / d < 1 <==> x < d
    ensures (x / d) * d <= x < (x / d + 1) * d
  {
  }

  /**
    `formatTime(timestamp)` with the clock reading `now` as a parameter:
    under a minute "Agora", under an hour whole minutes, under a day whole
    hours, and otherwise the locale date string, which is given.
  */
  function FormatTime(now: int, timestamp: int, localeDate: string): (r: string)
    ensures now - timestamp < MinuteMs ==> r == "Agora"
    ensures MinuteMs <= now - timestamp < HourMs ==>
              r == Decimal.NatToString((now - timestamp) / MinuteMs) + " min atrás"
    ensures HourMs <= now - timestamp < DayMs ==>
              r == Decimal.NatToString((now - timestamp) / HourMs) + "h atrás"
    ensures DayMs <= now - timestamp ==> r == localeDate
  {
    var diff := now - timestamp;
    var minutes := diff / MinuteMs;
    FloorBounds(diff, MinuteMs);
    HoursFromMinutes(diff);
    if minutes < 1 then "Agora"
    else if minutes < 60 then Decimal.NatToString(minutes) + " min atrás"
    else
      var hours := minutes / 60;
      if hours < 24 then Decimal.NatToString(hours) + "h atrás"
      else localeDate
  }

  /**
    The number shown in the minutes bucket is the whole number of elapsed
    minutes, between 1 and 59, and the text begins with it.
  */
  lemma FormatTimeShowsMinutes(now: int, timestamp: int, localeDate: string)
    requires MinuteMs <= now - timestamp < HourMs
    ensures var m := (now - timestamp) / MinuteMs;
            1 <= m <= 59 && m * MinuteMs <= now - timestamp < (m + 1) * MinuteMs
            && Decimal.ParseNat(FormatTime(now, timestamp, localeDate)[..|Decimal.NatToString(m)|]) == Some(m)
  {
    var diff := now - timestamp;
    var m := diff / MinuteMs;
    FloorBounds(diff, MinuteMs);
    Decimal.ParseNatToString(m);
    var r := FormatTime(now, timestamp, localeDate);
    assert r == Decimal.NatToString(m) + " min atrás";
    assert r[..|Decimal.NatToString(m)|] == Decimal.NatToString(m);
  }

  /**
    The number shown in the hours bucket is the whole number of elapsed
    hours, between 1 and 23, and the text begins with it.
  */
  lemma FormatTimeShowsHours(now: int, timestamp: int, localeDate: string)
    requires HourMs <= now - timestamp < DayMs
    ensures var h := (now - timestamp) / HourMs;
            1 <= h <= 23 && h * HourMs <= now - timestamp < (h + 1) * HourMs
            && Decimal.ParseNat(FormatTime(now, timestamp, localeDate)[..|Decimal.NatToString(h)|]) == Some(h)
  {
    var diff := now - timestamp;
    var h := diff / HourMs;
    FloorBounds(diff, HourMs);
    Decimal.ParseNatToString(h);
    var r := FormatTime(now, timestamp, localeDate);
    assert r == Decimal.NatToString(h) + "h atrás";
    assert r[..|Decimal.NatToString(h)|] == Decimal.NatToString(h);
  }

  const UnknownStatus: string := "Desconhecido"

  /** `getStatusText(status)`: the Portuguese label of a message status. */
  function StatusText(status: string): (r: string)
    ensures r == UnknownStatus <==> status !in {"pending", "processing", "completed"}
    ensures status == "pending" ==> r == "Pendente"
    ensures status == "processing" ==> r == "Processando"
    ensures status == "completed" ==> r == "Concluído"
  {
    if status == "pending" then "Pendente"
    else if status == "processing" then "Processando"
    else if status == "completed" then "Concluído"
    else UnknownStatus
  }

  const TextIcon: string := "<i class=\"fas fa-comment\"></i>"
  const AudioIcon: string := "<i class=\"fas fa-microphone\"></i>"
  const LocationIcon: string := "<i class=\"fas fa-map-marker-alt\"></i>"
  const SosIcon: string := "<i class=\"fas fa-exclamation-triangle\"></i>"
  const QuestionIcon: string := "<i class=\"fas fa-question\"></i>"

  /** `getMessageTypeIcon(type)` of the local-storage variant: four types. */
  function UnifiedIcon(t: string): (r: string)
    ensures r == QuestionIcon <==> t !in {"text", "audio", "location", "sos"}
    ensures t == "sos" ==> r == SosIcon
  {
    if t == "text" then TextIcon
    else if t == "audio" then AudioIcon
    else if t == "location" then LocationIcon
    else if t == "sos" then SosIcon
    else QuestionIcon
  }

  /** `getMessageTypeIcon(type)` of the mock variant: no entry for `'sos'`. */
  function MockIcon(t: string): (r: string)
    ensures r == QuestionIcon <==> t !in {"text", "audio", "location"}
  {
    if t == "text" then TextIcon
    else if t == "audio" then AudioIcon
    else if t == "location" then LocationIcon
    else QuestionIcon
  }

  /** The two variants agree on every type except `'sos'`. */
  lemma IconsAgreeExceptSos(t: string)
    ensures t != "sos" ==> MockIcon(t) == UnifiedIcon(t)
    ensures MockIcon("sos") == QuestionIcon && UnifiedIcon("sos") != QuestionIcon
  {
  }
}

=== FILE: jstext.dfy ===
/**
  The parts of JavaScript string and value semantics the application relies
  on: `String.prototype.trim`, truthiness of strings, and the truncating
  remainder operator `%`.
*/
module JsText {

  /**
    The characters `trim` removes: the WhiteSpace and LineTerminator
    productions of the ECMAScript grammar (tab, vertical tab, form feed,
    space, no-break space, byte order mark, the Unicode space separators,
    line feed, carriage return, line and paragraph separators).
  */
  predicate IsJsSpace(c: char)
  {
    || c == '\t' || c == '\n' || c == '\U{B}' || c == '\U{C}' || c == '\r'
    || c == ' ' || c == '\U{A0}' || c == '\U{1680}'
    || ('\U{2000}' <= c <= '\U{200A}')
    || c == '\U{2028}' || c == '\U{2029}' || c == '\U{202F}' || c == '\U{205F}'
    || c == '\U{3000}' || c == '\U{FEFF}'
  }

  predicate AllSpace(s: string)
  {
    forall i :: 0 <= i < |s| ==> IsJsSpace(s[i])
  }

  /** Leading white space removed. */
  function TrimStart(s: string): (r: string)
    ensures |r| <= |s| && r == s[|s| - |r|..]
    ensures r == [] || !IsJsSpace(r[0])
    ensures AllSpace(s[..|s| - |r|])
  {
    if |s| == 0 then s
    else if IsJsSpace(s[0]) then TrimStart(s[1..])
    else s
  }

  /** Trailing white space removed. */
  function TrimEnd(s: string): (r: string)
    ensures |r| <= |s| && r == s[..|r|]
    ensures r == [] || !IsJsSpace(r[|r| - 1])
    ensures AllSpace(s[|r|..])
  {
    if |s| == 0 then s
    else if IsJsSpace(s[|s| - 1]) then TrimEnd(s[..|s| - 1])
    else s
  }

  /** `s.trim()`. */
  function Trim(s: string): string
  {
    TrimEnd(TrimStart(s))
  }

  /**
    `trim` yields the empty string exactly when every character is white
    space, and otherwise a slice of the input that begins and ends with a
    character that is not.
  */
  lemma TrimEmptyIff(s: string)
    ensures Trim(s) == [] <==> AllSpace(s)
    ensures Trim(s) != [] ==> !IsJsSpace(Trim(s)[0]) && !IsJsSpace(Trim(s)[|Trim(s)| - 1])
    ensures exists i, j :: 0 <= i <= j <= |s| && Trim(s) == s[i..j]
  {
    var t := TrimStart(s);
    var k := |s| - |t|;
    var r := TrimEnd(t);
    if t != [] {
      // the first kept character is not white space, so it survives both passes
      assert t[0] == s[k] && !IsJsSpace(s[k]);
      assert !AllSpace(t[0..]) by { assert t[0..][0] == t[0]; }
    } else {
      assert s[..k] == s;
    }
    assert r == s[k..k + |r|];
  }

  /** JavaScript `a % b` for a positive divisor: the sign follows the dividend. */
  function JsRem(a: int, b: int): (r: int)
    requires b > 0
    ensures -b < r < b
    ensures a >= 0 ==> r == a % b
    ensures a < 0 ==> r == -((-a) % b)
  {
    if a >= 0 then a % b else -((-a) % b)
  }
}

=== FILE: location.dfy ===
/**
  The location tracker of assets/js/location.js (`LocationManager`):
  starting and stopping a watch, the success and error callbacks, the
  bounded history, and the read-only helpers that format a location,
  build map URLs, prepare it for an emergency and summarise the history.

  Positions come from the platform and are parameters; the rendering of a
  JavaScript number (`toString`, `toFixed(6)`) is passed in as a function.
*/
module Location {
  import opened Wrappers
  import Decimal

  /** `maxHistorySize`. */
  const MaxHistory: nat := 10

  const Unavailable: string := "Localização não disponível"

  /** The object `handleLocationSuccess` builds from a position; `timestamp` in ms. */
  datatype Location = Location(
    latitude: real,
    longitude: real,
    accuracy: real,
    timestamp: int,
    altitude: Option<real>,
    heading: Option<real>,
    speed: Option<real>)

  /** `currentLocation`, `watchId`, `isTracking` and `locationHistory`. */
  datatype LocState = LocState(
    current: Option<Location>,
    watchId: Option<int>,
    isTracking: bool,
    history: seq<Location>)

  const InitialLoc: LocState := LocState(None, None, false, [])

  /** The last `n` entries of `s`, or all of them when there are fewer. */
  function LastN<T>(s: seq<T>, n: nat): (r: seq<T>)
    ensures |r| == if |s| <= n then |s| else n
  {
    if |s| <= n then s else s[|s| - n..]
  }

  /**
    `addToHistory(location)`: append, then drop the oldest entry once the
    history is longer than the maximum.
  */
  function AddToHistory(h: seq<Location>, l: Location): (r: seq<Location>)
    ensures |h| <= MaxHistory ==> r == LastN(h + [l], MaxHistory)
    ensures |r| > 0 && r[|r| - 1] == l
    ensures |h| <= MaxHistory ==> |r| <= MaxHistory
  {
    var pushed := h + [l];
    if |pushed| > MaxHistory then pushed[1..] else pushed
  }

  /** Adding locations one at a time. */
  function AddAll(h: seq<Location>, ls: seq<Location>): seq<Location>
    decreases |ls|
  {
    if |ls| == 0 then h else AddAll(AddToHistory(h, ls[0]), ls[1..])
  }

  /** Keeping the last `n` before appending more and keeping the last `n` again loses nothing. */
  lemma LastNAppend<T>(a: seq<T>, b: seq<T>, n: nat)
    ensures LastN(LastN(a, n) + b, n) == LastN(a + b, n)
  {
    if |a| > n {
      var t := LastN(a, n) + b;
      assert |t| >= n;
      assert t[|t| - n..] == (a + b)[|a + b| - n..];
    }
  }

  /**
    Starting from a history within the bound, the history after any series
    of additions is exactly the last `MaxHistory` locations of the old
    history followed by the new ones.
  */
  lemma {:induction false} AddAllKeepsLast(h: seq<Location>, ls: seq<Location>)
    requires |h| <= MaxHistory
    ensures AddAll(h, ls) == LastN(h + ls, MaxHistory)
    decreases |ls|
  {
    if |ls| == 0 {
      assert h + ls == h;
    } else {
      var h1 := AddToHistory(h, ls[0]);
      AddAllKeepsLast(h1, ls[1..]);
      LastNAppend(h + [ls[0]], ls[1..], MaxHistory);
      assert (h + [ls[0]]) + ls[1..] == h + ls;
    }
  }

  /**
    `startLocationTracking()`: nothing happens while tracking; without
    geolocation support an error is reported and nothing changes;
    otherwise tracking is on and the watch id the platform returned is kept.
  */
  function StartTracking(s: LocState, supported: bool, watchId: int): (r: (LocState, Option<string>))
    ensures s.isTracking ==> r == (s, None)
    ensures !s.isTracking && !supported ==> r == (s, Some("Geolocalização não suportada"))
    ensures !s.isTracking && supported ==>
              r.1.None? && r.0.isTracking && r.0.watchId == Some(watchId)
              && r.0.current == s.current && r.0.history == s.history
  {
    if s.isTracking then (s, None)
    else if !supported then (s, Some("Geolocalização não suportada"))
    else (s.(isTracking := true, watchId := Some(watchId)), None)
  }

  /** JavaScript truthiness of `watchId`: set and not zero. */
  predicate WatchSet(w: Option<int>)
  {
    w.Some? && w.value != 0
  }

  /**
    `stopLocationTracking()`: when the watch id is truthy the watch is
    cleared and tracking is off; otherwise nothing changes.
  */
  function StopTracking(s: LocState): (r: LocState)
    ensures WatchSet(s.watchId) ==> r.watchId.None? && !r.isTracking
    ensures !WatchSet(s.watchId) ==> r == s
    ensures r.current == s.current && r.history == s.history
  {
    if WatchSet(s.watchId) then s.(watchId := None, isTracking := false) else s
  }

  /**
    Starting and then stopping turns tracking off exactly when the platform
    handed out a non-zero watch id; a watch id of 0 is falsy and leaves
    tracking on.
  */
  lemma StartStop(s: LocState, watchId: int)
    requires !s.isTracking
    ensures !StopTracking(StartTracking(s, true, watchId).0).isTracking <==> watchId != 0
  {
  }

  /**
    `handleLocationSuccess(position)`: the location becomes current and is
    added to the history.
  */
  function HandleLocationSuccess(s: LocState, l: Location): (r: LocState)
    ensures r.current == Some(l)
    ensures |r.history| > 0 && r.history[|r.history| - 1] == l
    ensures |s.history| <= MaxHistory ==> r.history == LastN(s.history + [l], MaxHistory)
    ensures r.watchId == s.watchId && r.isTracking == s.isTracking
  {
    s.(current := Some(l), history := AddToHistory(s.history, l))
  }

  /** A series of position fixes, one after another. */
  function Fixes(s: LocState, ls: seq<Location>): LocState
    decreases |ls|
  {
    if |ls| == 0 then s else Fixes(HandleLocationSuccess(s, ls[0]), ls[1..])
  }

  /**
    After a non-empty series of fixes from a state within the bound, the
    current location is the last fix and the history is the last
    `MaxHistory` entries of the old history followed by the fixes.
  */
  lemma {:induction false} FixesTrack(s: LocState, ls: seq<Location>)
    requires |s.history| <= MaxHistory
    ensures Fixes(s, ls).history == AddAll(s.history, ls)
    ensures Fixes(s, ls).history == LastN(s.history + ls, MaxHistory)
    ensures |ls| > 0 ==> Fixes(s, ls).current == Some(ls[|ls| - 1])
    ensures |ls| == 0 ==> Fixes(s, ls).current == s.current
    decreases |ls|
  {
    AddAllKeepsLast(s.history, ls);
    if |ls| > 0 {
      var s1 := HandleLocationSuccess(s, ls[0]);
      FixesTrack(s1, ls[1..]);
      if |ls| > 1 {
        assert ls[1..][|ls[1..]| - 1] == ls[|ls| - 1];
      }
    }
  }

  const PermissionDenied: int := 1
  const PositionUnavailable: int := 2
  const Timeout: int := 3
  const UnknownError: string := "Erro desconhecido ao obter localização"

  /** `handleLocationError(error)`: the message shown for an error code. */
  function LocationErrorMessage(code: int): (r: string)
    ensures code == PermissionDenied ==> r == "Permissão de localização negada"
    ensures code == PositionUnavailable ==> r == "Informação de localização indisponível"
    ensures code == Timeout ==> r == "Tempo limite excedido ao obter localização"
    ensures r == UnknownError <==> code !in {PermissionDenied, PositionUnavailable, Timeout}
  {
    if code == PermissionDenied then "Permissão de localização negada"
    else if code == PositionUnavailable then "Informação de localização indisponível"
    else if code == Timeout then "Tempo limite excedido ao obter localização"
    else UnknownError
  }

  /** The three known codes have three different messages. */
  lemma ErrorMessagesDistinct(a: int, b: int)
    requires a in {PermissionDenied, PositionUnavailable, Timeout}
    requires LocationErrorMessage(a) == LocationErrorMessage(b)
    ensures a == b
  {
  }

  /** `Math.round`: the nearest integer, halves rounded up. */
  function Round(x: real): (r: int)
    ensures r as real - 0.5 <= x < r as real + 0.5
  {
    (x + 0.5).Floor
  }

  /**
    `formatLocation(location)`: the unavailable text without a location;
    otherwise both coordinates with six decimals, followed by the rounded
    accuracy when the accuracy is truthy.
  */
  function FormatLocation(loc: Option<Location>, fixed6: real -> string): (r: string)
    ensures loc.None? ==> r == Unavailable
    ensures loc.Some? ==>
              var prefix := fixed6(loc.value.latitude) + ", " + fixed6(loc.value.longitude);
              |prefix| <= |r| && r[..|prefix|] == prefix
              && (loc.value.accuracy == 0.0 <==> r == prefix)
  {
    match loc
    case None => Unavailable
    case Some(l) =>
      var accuracy := if l.accuracy != 0.0
        then " (Precisão: ±" + Decimal.IntToString(Round(l.accuracy)) + "m)"
        else "";
      var prefix := fixed6(l.latitude) + ", " + fixed6(l.longitude);
      assert (prefix + accuracy)[..|prefix|] == prefix;
      prefix + accuracy
  }

  const GooglePrefix: string := "https://www.google.com/maps?q="
  const OsmPrefix: string := "https://www.openstreetmap.org/?mlat="

  /** `getGoogleMapsUrl(location)`: null without a location. */
  function GoogleMapsUrl(loc: Option<Location>, show: real -> string): (r: Option<string>)
    ensures r.None? <==> loc.None?
    ensures r.Some? ==> |GooglePrefix| <= |r.value| && r.value[..|GooglePrefix|] == GooglePrefix
    ensures r.Some? ==> r.value[|GooglePrefix|..] == show(loc.value.latitude) + "," + show(loc.value.longitude)
  {
    match loc
    case None => None
    case Some(l) =>
      var q := show(l.latitude) + "," + show(l.longitude);
      assert (GooglePrefix + q)[..|GooglePrefix|] == GooglePrefix;
      assert (GooglePrefix + q)[|GooglePrefix|..] == q;
      Some(GooglePrefix + q)
  }

  /** `getOpenStreetMapUrl(location)`: null without a location; zoom level 15. */
  function OpenStreetMapUrl(loc: Option<Location>, show: real -> string): (r: Option<string>)
    ensures r.None? <==> loc.None?
    ensures r.Some? ==> |OsmPrefix| <= |r.value| && r.value[..|OsmPrefix|] == OsmPrefix
    ensures r.Some? ==>
              r.value[|OsmPrefix|..] == show(loc.value.latitude) + "&mlon=" + show(loc.value.longitude) + "&zoom=15"
  {
    match loc
    case None => None
    case Some(l) =>
      var q := show(l.latitude) + "&mlon=" + show(l.longitude) + "&zoom=15";
      assert (OsmPrefix + q)[..|OsmPrefix|] == OsmPrefix;
      assert (OsmPrefix + q)[|OsmPrefix|..] == q;
      Some(OsmPrefix + q)
  }

  /** The object `getLocationForEmergency` returns. */
  datatype EmergencyLocation = EmergencyLocation(latitude: real, longitude: real, accuracy: real,
                                                 timestamp: string, source: string)

  /**
    `getLocationForEmergency()`: throws without a current location;
    otherwise the current coordinates and accuracy, the time of the call
    (given as its ISO text) and the source tag.
  */
  function LocationForEmergency(s: LocState, nowIso: string): (r: Result<EmergencyLocation, string>)
    ensures r.Err? <==> s.current.None?
    ensures r.Err? ==> r.error == Unavailable
    ensures r.Ok? ==> && r.value.latitude == s.current.value.latitude
                      && r.value.longitude == s.current.value.longitude
                      && r.value.accuracy == s.current.value.accuracy
                      && r.value.timestamp == nowIso
                      && r.value.source == "browser_geolocation"
  {
    match s.current
    case None => Err(Unavailable)
    case Some(l) => Ok(EmergencyLocation(l.latitude, l.longitude, l.accuracy, nowIso, "browser_geolocation"))
  }

  /**
    Once a fix has arrived, every consumer of the current location works on
    that fix: the emergency payload carries its coordinates and accuracy,
    the text and both map links are built from it, and the statistics end
    at it.
  */
  lemma ConsumersAfterFix(s: LocState, l: Location, nowIso: string, fixed6: real -> string, show: real -> string)
    requires |s.history| <= MaxHistory
    ensures var t := HandleLocationSuccess(s, l);
            && LocationForEmergency(t, nowIso)
                 == Ok(EmergencyLocation(l.latitude, l.longitude, l.accuracy, nowIso, "browser_geolocation"))
            && FormatLocation(t.current, fixed6) == FormatLocation(Some(l), fixed6)
            && FormatLocation(t.current, fixed6) != Unavailable
            && GoogleMapsUrl(t.current, show) == Some(GooglePrefix + show(l.latitude) + "," + show(l.longitude))
            && OpenStreetMapUrl(t.current, show).Some?
            && LocationStats(t.history).Some? && LocationStats(t.history).value.last == l
  {
    var t := HandleLocationSuccess(s, l);
    var prefix := fixed6(l.latitude) + ", " + fixed6(l.longitude);
    var r := FormatLocation(t.current, fixed6);
    assert prefix[|fixed6(l.latitude)|] == ',';
    assert r[|fixed6(l.latitude)|] == ',';
    NoCommaInUnavailable();
    var g := GoogleMapsUrl(t.current, show).value;
    var q := show(l.latitude) + "," + show(l.longitude);
    assert g[..|GooglePrefix|] == GooglePrefix && g[|GooglePrefix|..] == q;
    assert g == g[..|GooglePrefix|] + g[|GooglePrefix|..];
    assert GooglePrefix + q == GooglePrefix + show(l.latitude) + "," + show(l.longitude);
  }

  /** The unavailable text contains no comma, so no formatted location equals it. */
  lemma NoCommaInUnavailable()
    ensures forall i :: 0 <= i < |Unavailable| ==> Unavailable[i] != ','
  {
  }

  /** The integral part of `getLocationStats()`'s result. */
  datatype LocStats = LocStats(totalLocations: nat, first: Location, last: Location, timeSpan: int)

  /**
    `getLocationStats()`: null on an empty history; otherwise the number of
    entries, the oldest and newest entries and the time between them.
  */
  function LocationStats(h: seq<Location>): (r: Option<LocStats>)
    ensures r.None? <==> |h| == 0
    ensures r.Some? ==> && r.value.totalLocations == |h|
                        && r.value.first == h[0] && r.value.last == h[|h| - 1]
                        && r.value.timeSpan == h[|h| - 1].timestamp - h[0].timestamp
  {
    if |h| == 0 then None
    else Some(LocStats(|h|, h[0], h[|h| - 1], h[|h| - 1].timestamp - h[0].timestamp))
  }

  /**
    After fixes from the initial state the statistics count at most
    `MaxHistory` entries and end at the newest fix.
  */
  lemma StatsAfterFixes(ls: seq<Location>)
    requires |ls| > 0
    ensures var st := LocationStats(Fixes(InitialLoc, ls).history);
            st.Some? && st.value.totalLocations == (if |ls| <= MaxHistory then |ls| else MaxHistory)
            && st.value.last == ls[|ls| - 1]
            && Fixes(InitialLoc, ls).current == Some(st.value.last)
  {
    FixesTrack(InitialLoc, ls);
    assert InitialLoc.history + ls == ls;
  }
}

=== FILE: mock_app.dfy ===
/**
  The mock-data variant of the application (assets/js/app.js): hard-coded
  credentials, a fixed message list filtered without sorting, a navigator
  without history, and a registration that stores nothing.
*/
module MockApp {
  import opened Wrappers
  import opened Sessions
  import Navigator
  import JsText

  /** `currentScreen` and the session fields; this variant keeps no history. */
  datatype MockState = MockState(currentScreen: string, session: Session)

  const InitialMock: MockState := MockState(Navigator.SplashScreen, SignedOut)

  /**
    `showScreen(screenId)` without history: an existing target becomes
    current, otherwise the access-selection screen if it exists, otherwise
    nothing changes.
  */
  function ShowScreen(current: string, dom: set<string>, target: string): (r: string)
    ensures target in dom ==> r == target
    ensures target !in dom && Navigator.AccessSelection in dom ==> r == Navigator.AccessSelection
    ensures target !in dom && Navigator.AccessSelection !in dom ==> r == current
    ensures r == (Navigator.ShowScreen(Navigator.Nav(current, []), dom, target)).current
  {
    if target in dom then target
    else if Navigator.AccessSelection in dom then Navigator.AccessSelection
    else current
  }

  /**
    Mock `handleAccessSelection`: remember the access type and open the
    matching login screen; an unknown type changes only `userType`.
  */
  function SelectAccess(st: MockState, dom: set<string>, access: string): (r: MockState)
    ensures r.session == st.session.(userType := Some(access))
    ensures access == "police" && Navigator.PoliceLogin in dom ==> r.currentScreen == Navigator.PoliceLogin
    ensures access == "citizen" && Navigator.CitizenLogin in dom ==> r.currentScreen == Navigator.CitizenLogin
    ensures access != "police" && access != "citizen" ==> r.currentScreen == st.currentScreen
  {
    var session := st.session.(userType := Some(access));
    if access == "police" then MockState(ShowScreen(st.currentScreen, dom, Navigator.PoliceLogin), session)
    else if access == "citizen" then MockState(ShowScreen(st.currentScreen, dom, Navigator.CitizenLogin), session)
    else st.(session := session)
  }

  predicate PoliceAccepted(id: string, code: string)
  {
    id == "POL007" && code == "CISP2007"
  }

  predicate CitizenAccepted(bi: string, password: string)
  {
    bi == "123456789" && password == "senha123"
  }

  /**
    Mock `handlePoliceLogin`: an empty field is refused first; only the
    literal pair `POL007`/`CISP2007` is accepted; a refusal changes nothing.
  */
  function PoliceLogin(st: MockState, dom: set<string>, id: string, code: string): (r: (MockState, Notice))
    ensures r.1 == Silent <==> id == "POL007" && code == "CISP2007"
    ensures id == "" || code == "" ==> r == (st, ErrorNotice(FillAllFields))
    ensures !(id == "POL007" && code == "CISP2007") && id != "" && code != "" ==>
              r == (st, ErrorNotice(BadPoliceLogin))
    ensures id == "POL007" && code == "CISP2007" ==>
              r.0.session.currentUser == Some(SessionUser("POL007", "Agente POL007", "police"))
              && r.0.session.isAuthenticated && r.0.session.userType == st.session.userType
              && (Navigator.PolicePanel in dom ==> r.0.currentScreen == Navigator.PolicePanel)
  {
    if id == "" || code == "" then (st, ErrorNotice(FillAllFields))
    else if PoliceAccepted(id, code) then
      var session := st.session.(currentUser := Some(SessionUser(id, "Agente POL007", "police")),
                                 isAuthenticated := true);
      (MockState(ShowScreen(st.currentScreen, dom, Navigator.PolicePanel), session), Silent)
    else (st, ErrorNotice(BadPoliceLogin))
  }

  /**
    Mock `handleCitizenLogin`: the same flow for the literal pair
    `123456789`/`senha123`.
  */
  function CitizenLogin(st: MockState, dom: set<string>, bi: string, password: string): (r: (MockState, Notice))
    ensures r.1 == Silent <==> bi == "123456789" && password == "senha123"
    ensures bi == "" || password == "" ==> r == (st, ErrorNotice(FillAllFields))
    ensures !(bi == "123456789" && password == "senha123") && bi != "" && password != "" ==>
              r == (st, ErrorNotice(BadCitizenLogin))
    ensures bi == "123456789" && password == "senha123" ==>
              r.0.session.currentUser == Some(SessionUser("123456789", "João Silva", "citizen"))
              && r.0.session.isAuthenticated && r.0.session.userType == st.session.userType
              && (Navigator.CitizenMain in dom ==> r.0.currentScreen == Navigator.CitizenMain)
  {
    if bi == "" || password == "" then (st, ErrorNotice(FillAllFields))
    else if CitizenAccepted(bi, password) then
      var session := st.session.(currentUser := Some(SessionUser(bi, "João Silva", "citizen")),
                                 isAuthenticated := true);
      (MockState(ShowScreen(st.currentScreen, dom, Navigator.CitizenMain), session), Silent)
    else (st, ErrorNotice(BadCitizenLogin))
  }

  /**
    Mock `handleCitizenRegister`: a password mismatch is refused; anything
    else reports success, stores nothing, and (once the redirect timer
    fires) shows the citizen login screen.
  */
  function Register(st: MockState, dom: set<string>, password: string, confirm: string): (r: (MockState, Notice))
    ensures password != confirm ==> r == (st, ErrorNotice(PasswordsDiffer))
    ensures password == confirm ==> r.1 == SuccessNotice("Cadastro realizado com sucesso!")
    ensures r.0.session == st.session
    ensures password == confirm && Navigator.CitizenLogin in dom ==> r.0.currentScreen == Navigator.CitizenLogin
  {
    if password != confirm then (st, ErrorNotice(PasswordsDiffer))
    else (st.(currentScreen := ShowScreen(st.currentScreen, dom, Navigator.CitizenLogin)),
          SuccessNotice("Cadastro realizado com sucesso!"))
  }

  /** Mock `logout`/`citizenLogout`: sign out and show access selection. */
  function Logout(st: MockState, dom: set<string>): (r: MockState)
    ensures !r.session.isAuthenticated && r.session.currentUser.None? && r.session.userType.None?
    ensures Navigator.AccessSelection in dom ==> r.currentScreen == Navigator.AccessSelection
  {
    MockState(ShowScreen(st.currentScreen, dom, Navigator.AccessSelection), SignOut(st.session))
  }

  /** An entry of the hard-coded message list; `timestamp` in milliseconds. */
  datatype MockMessage = MockMessage(id: nat, kind: string, content: string, sender: string,
                                     timestamp: int, status: string)

  /**
    The list `loadMockData` builds at clock reading `now`. The source reads
    `Date.now()` once per entry; the three readings are collapsed into one,
    which keeps the order because the offsets are five minutes apart.
  */
  function MockMessages(now: int): seq<MockMessage>
  {
    [MockMessage(1, "text", "Roubo em andamento na Rua das Flores", "João Silva", now - 300000, "pending"),
     MockMessage(2, "audio", "audio_emergency_001.mp3", "Maria Santos", now - 600000, "processing"),
     MockMessage(3, "location", "Localização enviada", "Pedro Costa", now - 900000, "completed")]
  }

  /** `a` is `b` with some entries removed, the rest in their original order. */
  predicate IsSubsequence<T(==)>(a: seq<T>, b: seq<T>)
    decreases |b|
  {
    if |a| == 0 then true
    else if |b| == 0 then false
    else if a[0] == b[0] then IsSubsequence(a[1..], b[1..])
    else IsSubsequence(a, b[1..])
  }

  function FilterKind(ms: seq<MockMessage>, kind: string): (r: seq<MockMessage>)
    ensures IsSubsequence(r, ms)
    ensures forall i :: 0 <= i < |r| ==> r[i].kind == kind
    ensures forall m :: multiset(r)[m] == if m.kind == kind then multiset(ms)[m] else 0
    decreases |ms|
  {
    if |ms| == 0 then []
    else
      assert ms == [ms[0]] + ms[1..];
      if ms[0].kind == kind then [ms[0]] + FilterKind(ms[1..], kind)
      else
        SubsequenceOfTail(FilterKind(ms[1..], kind), ms);
        FilterKind(ms[1..], kind)
  }

  /** Dropping the head of `b` keeps a subsequence of the tail a subsequence of `b`. */
  lemma {:induction false} SubsequenceOfTail<T>(a: seq<T>, b: seq<T>)
    requires |b| > 0 && IsSubsequence(a, b[1..])
    ensures IsSubsequence(a, b)
    decreases |b|, 0
  {
    if |a| > 0 && a[0] == b[0] {
      SubsequenceDropHead(a, b[1..]);
    }
  }

  /** A subsequence stays one when its own first entry is dropped. */
  lemma {:induction false} SubsequenceDropHead<T>(a: seq<T>, b: seq<T>)
    requires |a| > 0 && IsSubsequence(a, b)
    ensures IsSubsequence(a[1..], b)
    decreases |b|, 1
  {
    if a[0] == b[0] {
      SubsequenceOfTail(a[1..], b);
    } else {
      SubsequenceDropHead(a, b[1..]);
      SubsequenceOfTail(a[1..], b);
    }
  }

  /**
    Mock `loadMessages(filter)`: with `'all'` the list in its original order
    (no sort); otherwise exactly the entries of that kind, in original order.
  */
  function LoadMessages(ms: seq<MockMessage>, filter: string): (r: seq<MockMessage>)
    ensures filter == "all" ==> r == ms
    ensures filter != "all" ==> IsSubsequence(r, ms)
    ensures filter != "all" ==> forall m :: multiset(r)[m] == if m.kind == filter then multiset(ms)[m] else 0
  {
    if filter == "all" then ms else FilterKind(ms, filter)
  }

  /** The mock list happens to be newest first already, so not sorting shows nothing odd. */
  lemma MockListNewestFirst(now: int)
    ensures var ms := LoadMessages(MockMessages(now), "all");
            forall i, j :: 0 <= i < j < |ms| ==> ms[i].timestamp > ms[j].timestamp
  {
  }

  /** The feedback element's text and class after `sendCustomMessage`. */
  datatype Feedback = Feedback(text: string, cls: string)

  /**
    Mock `sendCustomMessage`: a message that is empty after trimming sets
    the error feedback and leaves the input alone; any other message sets
    the success feedback and clears the input. Returns the input field's
    new value and the feedback.
  */
  function SendCustomMessage(input: string): (r: (string, Feedback))
    ensures JsText.AllSpace(input) ==> r == (input, Feedback("Por favor, digite uma mensagem.", "error"))
    ensures !JsText.AllSpace(input) ==> r == ("", Feedback("Mensagem enviada com sucesso!", "success"))
  {
    JsText.TrimEmptyIff(input);
    if JsText.Trim(input) == "" then (input, Feedback("Por favor, digite uma mensagem.", "error"))
    else ("", Feedback("Mensagem enviada com sucesso!", "success"))
  }
}

=== FILE: navigator.dfy ===
/**
  The screen navigator of the local-storage application (assets/js/unified.js):
  one visible screen plus a back-stack of at most ten screen names.

  The document is abstracted to the set `dom` of screen ids that exist in the
  page; hiding and showing elements is presentation and is not modelled.
*/
module Navigator {

  const SplashScreen: string := "splash-screen"
  const AccessSelection: string := "access-selection"
  const PoliceLogin: string := "police-login"
  const PolicePanel: string := "police-panel"
  const CitizenLogin: string := "citizen-login"
  const CitizenRegister: string := "citizen-register"
  const CitizenMain: string := "citizen-main"
  const AdminPanel: string := "admin-panel"

  /** The back-stack never holds more entries than this. */
  const MaxHistory: nat := 10

  /** `currentScreen` and `screenHistory` of the application object. */
  datatype Nav = Nav(current: string, history: seq<string>)

  /** State after construction: the splash screen and an empty history. */
  const Initial: Nav := Nav(SplashScreen, [])

  function Min(a: int, b: int): int
  {
    if a <= b then a else b
  }

  /** The top of the back-stack, when there is one. */
  predicate TopIs(history: seq<string>, screen: string)
  {
    |history| > 0 && history[|history| - 1] == screen
  }

  /** No screen follows itself on the back-stack. */
  predicate NoRepeats(history: seq<string>)
  {
    forall i :: 0 < i < |history| ==> history[i - 1] != history[i]
  }

  /** The invariant of the navigator: bounded and free of immediate repeats. */
  predicate Valid(n: Nav)
  {
    |n.history| <= MaxHistory && NoRepeats(n.history)
  }

  /**
    Record a visit on the back-stack: push unless already on top, then drop
    the oldest entry if the stack grew past the bound.
  */
  function Record(history: seq<string>, screen: string): (h: seq<string>)
    ensures TopIs(h, screen)
    ensures TopIs(history, screen) && |history| <= MaxHistory ==> h == history
    ensures !TopIs(history, screen) && |history| <= MaxHistory ==>
              |h| == Min(|history| + 1, MaxHistory)
              && h == (history + [screen])[|history| + 1 - |h|..]
    ensures |history| <= MaxHistory ==> |h| <= MaxHistory
  {
    var pushed := if TopIs(history, screen) then history else history + [screen];
    if |pushed| > MaxHistory then pushed[1..] else pushed
  }

  /**
    `showScreen(target)`: an existing target becomes current and is recorded;
    a missing target falls back to the access-selection screen without
    touching the history; if that screen is missing too, nothing changes.
  */
  function ShowScreen(n: Nav, dom: set<string>, target: string): (r: Nav)
    ensures target in dom ==> r.current == target && r.history == Record(n.history, target)
    ensures target !in dom && AccessSelection in dom ==>
              r.current == AccessSelection && r.history == n.history
    ensures target !in dom && AccessSelection !in dom ==> r == n
    ensures Valid(n) ==> Valid(r)
  {
    if target in dom then
      RecordKeepsNoRepeats(n.history, target);
      Nav(target, Record(n.history, target))
    else if AccessSelection in dom then
      n.(current := AccessSelection)
    else
      n
  }

  lemma RecordKeepsNoRepeats(history: seq<string>, screen: string)
    ensures NoRepeats(history) ==> NoRepeats(Record(history, screen))
  {
    if !NoRepeats(history) { return; }
    var pushed := if TopIs(history, screen) then history else history + [screen];
    assert NoRepeats(pushed);
    if |pushed| > MaxHistory {
      assert forall i :: 0 < i < |pushed| - 1 ==> pushed[1..][i - 1] == pushed[i] && pushed[1..][i] == pushed[i + 1];
    }
  }

  /**
    `goBack()`: with two or more entries, drop the top and show the entry
    beneath it; otherwise go to the access-selection screen.
  */
  function GoBack(n: Nav, dom: set<string>): (r: Nav)
    ensures Valid(n) ==> Valid(r)
  {
    if |n.history| > 1 then
      var popped := n.history[..|n.history| - 1];
      assert NoRepeats(n.history) ==> NoRepeats(popped);
      ShowScreen(n.(history := popped), dom, popped[|popped| - 1])
    else
      ShowScreen(n, dom, AccessSelection)
  }

  /**
    Going back from a stack of two or more existing screens pops exactly the
    top entry and shows the one beneath without pushing it again.
  */
  lemma GoBackPopsTop(n: Nav, dom: set<string>)
    requires 2 <= |n.history| <= MaxHistory + 1
    requires n.history[|n.history| - 2] in dom
    ensures GoBack(n, dom).current == n.history[|n.history| - 2]
    ensures GoBack(n, dom).history == n.history[..|n.history| - 1]
  {
  }

  /** With at most one entry, going back lands on the access-selection screen. */
  lemma GoBackShortHistory(n: Nav, dom: set<string>)
    requires |n.history| <= 1
    requires AccessSelection in dom
    ensures GoBack(n, dom).current == AccessSelection
    ensures TopIs(GoBack(n, dom).history, AccessSelection)
  {
  }

  /**
    Navigating to a new existing screen and then back returns to the screen
    on top of the back-stack; the back-stack is restored too, except that a
    full stack has lost its oldest entry.
  */
  lemma ShowThenBack(n: Nav, dom: set<string>, target: string)
    requires Valid(n) && |n.history| > 0
    requires n.history[|n.history| - 1] in dom && target in dom
    requires !TopIs(n.history, target)
    ensures GoBack(ShowScreen(n, dom, target), dom).current == n.history[|n.history| - 1]
    ensures GoBack(ShowScreen(n, dom, target), dom).history ==
              if |n.history| < MaxHistory then n.history else n.history[1..]
  {
    var h := n.history;
    var m := ShowScreen(n, dom, target);
    var popped := PushedThenPopped(h, target);
    assert m.history == Record(h, target);
    assert GoBack(m, dom) == ShowScreen(m.(history := popped), dom, popped[|popped| - 1]);
  }

  /**
    The back-stack after recording a new screen, with its top removed again:
    the old stack, less its oldest entry when it was full.
  */
  lemma PushedThenPopped(h: seq<string>, target: string) returns (popped: seq<string>)
    requires 0 < |h| <= MaxHistory && !TopIs(h, target)
    ensures |Record(h, target)| > 1
    ensures popped == Record(h, target)[..|Record(h, target)| - 1]
    ensures popped == if |h| < MaxHistory then h else h[1..]
    ensures |popped| > 0 && popped[|popped| - 1] == h[|h| - 1]
    ensures Record(popped, h[|h| - 1]) == popped
  {
    if |h| < MaxHistory {
      popped := PoppedShort(h, target);
    } else {
      popped := PoppedFull(h, target);
    }
  }

  lemma PoppedShort(h: seq<string>, target: string) returns (popped: seq<string>)
    requires 0 < |h| < MaxHistory && !TopIs(h, target)
    ensures |Record(h, target)| > 1
    ensures popped == Record(h, target)[..|Record(h, target)| - 1]
    ensures popped == h
    ensures |popped| > 0 && popped[|popped| - 1] == h[|h| - 1]
    ensures Record(popped, h[|h| - 1]) == popped
  {
    var r := h + [target];
    assert Record(h, target) == r;
    assert r[..|r| - 1] == h;
    popped := h;
  }

  lemma PoppedFull(h: seq<string>, target: string) returns (popped: seq<string>)
    requires |h| == MaxHistory && !TopIs(h, target)
    ensures |Record(h, target)| > 1
    ensures popped == Record(h, target)[..|Record(h, target)| - 1]
    ensures popped == h[1..]
    ensures |popped| > 0 && popped[|popped| - 1] == h[|h| - 1]
    ensures Record(popped, h[|h| - 1]) == popped
  {
    var pushed := h + [target];
    var r := pushed[1..];
    assert Record(h, target) == r;
    assert r[..|r| - 1] == h[1..];
    popped := h[1..];
    assert TopIs(popped, h[|h| - 1]);
  }

  /**
    A fallback to the access-selection screen is shown but not recorded, so
    a later visit followed by going back skips it: the screen reached is the
    one that was on top of the back-stack before the fallback, not the
    access-selection screen that was on display.
  */
  lemma FallbackSkippedByBack(n: Nav, dom: set<string>, missing: string, other: string)
    requires Valid(n) && |n.history| > 0
    requires n.history[|n.history| - 1] in dom && n.history[|n.history| - 1] != AccessSelection
    requires missing !in dom && AccessSelection in dom
    requires other in dom && !TopIs(n.history, other)
    ensures ShowScreen(n, dom, missing) == Nav(AccessSelection, n.history)
    ensures GoBack(ShowScreen(ShowScreen(n, dom, missing), dom, other), dom).current
              == n.history[|n.history| - 1]
    ensures GoBack(ShowScreen(ShowScreen(n, dom, missing), dom, other), dom).current
              != ShowScreen(n, dom, missing).current
  {
    var m := ShowScreen(n, dom, missing);
    ShowThenBack(m, dom, other);
  }

  /**
    The second splash timer: after the longer delay it navigates to the
    access-selection screen only if the splash screen is still current.
  */
  function SplashFallback(n: Nav, dom: set<string>): (r: Nav)
    ensures n.current != SplashScreen ==> r == n
    ensures n.current == SplashScreen && AccessSelection in dom ==> r.current == AccessSelection
  {
    if n.current == SplashScreen then ShowScreen(n, dom, AccessSelection) else n
  }

  /** A user's navigation request. */
  datatype Command = Show(target: string) | Back

  function Step(n: Nav, dom: set<string>, c: Command): Nav
  {
    match c
    case Show(t) => ShowScreen(n, dom, t)
    case Back => GoBack(n, dom)
  }

  function Run(n: Nav, dom: set<string>, cs: seq<Command>): Nav
    decreases |cs|
  {
    if |cs| == 0 then n else Run(Step(n, dom, cs[0]), dom, cs[1..])
  }

  /**
    From the initial state, any sequence of navigations keeps the back-stack
    within ten entries and free of immediate repeats.
  */
  lemma {:induction false} RunKeepsValid(n: Nav, dom: set<string>, cs: seq<Command>)
    requires Valid(n)
    ensures Valid(Run(n, dom, cs))
    decreases |cs|
  {
    if |cs| > 0 {
      RunKeepsValid(Step(n, dom, cs[0]), dom, cs[1..]);
    }
  }
}

=== FILE: send_message.dfy ===
/**
  The message-submission endpoint php/api/send_message.php: method check,
  body validation with PHP's `empty()`, the record handed to the database,
  and the JSON response.

  The decoded request body is a parameter (`json_decode` of malformed text
  yields null), and so is the database's answer to the insert.
*/
module SendMessage {
  import opened Wrappers

  /** A value as `json_decode($text, true)` produces it; objects become keyed arrays. */
  datatype JVal =
    | JNull
    | JBool(b: bool)
    | JNum(n: real)
    | JStr(s: string)
    | JList(items: seq<JVal>)
    | JObject(fields: map<string, JVal>)

  /**
    PHP `empty()` (and `!` on a defined variable): null, false, zero, the
    empty string, the string "0" and an empty array.
  */
  predicate PhpEmpty(v: JVal)
  {
    match v
    case JNull => true
    case JBool(b) => !b
    case JNum(n) => n == 0.0
    case JStr(s) => s == "" || s == "0"
    case JList(items) => |items| == 0
    case JObject(fields) => |fields| == 0
  }

  /**
    `$input[$key]` as `empty()` and `??` see it: the entry of a keyed array,
    absent for every other value (a list has integer keys only, and a
    scalar has no named entries).
  */
  function Lookup(v: JVal, key: string): (r: Option<JVal>)
    ensures r.Some? <==> v.JObject? && key in v.fields
  {
    if v.JObject? && key in v.fields then Some(v.fields[key]) else None
  }

  /** `empty($input[$key])`: absent or empty. */
  predicate FieldEmpty(v: JVal, key: string)
  {
    Lookup(v, key).None? || PhpEmpty(Lookup(v, key).value)
  }

  /** The error text before the name of a missing field. */
  const MissingField: string := "Campo obrigatório ausente: "

  /** `$required`, in the order the loop checks them. */
  const Required: seq<string> := ["sender_id", "sender_type", "sender_name", "message_type", "content"]

  /**
    The first required field, in the given order, that is empty, or none
    when every one is filled.
  */
  function FirstMissing(v: JVal, fields: seq<string>): (r: Option<nat>)
    ensures r.Some? ==> r.value < |fields| && FieldEmpty(v, fields[r.value])
    ensures r.Some? ==> forall i :: 0 <= i < r.value ==> !FieldEmpty(v, fields[i])
    ensures r.None? <==> forall i :: 0 <= i < |fields| ==> !FieldEmpty(v, fields[i])
    decreases |fields|
  {
    if |fields| == 0 then None
    else if FieldEmpty(v, fields[0]) then Some(0)
    else
      match FirstMissing(v, fields[1..])
      case None => None
      case Some(k) => Some(k + 1)
  }

  /** The row passed to `createMessage`. */
  datatype Row = Row(
    senderId: JVal,
    senderType: JVal,
    senderName: JVal,
    messageType: JVal,
    content: JVal,
    latitude: JVal,
    longitude: JVal,
    status: string)

  /** The HTTP status and the JSON body; OPTIONS answers with no body. */
  datatype Response = Response(status: nat, body: Option<JVal>)

  /** The outcome of one request: the response and the row, when an insert was attempted. */
  datatype Outcome = Outcome(response: Response, inserted: Option<Row>)

  function Failure(status: nat, error: string): Response
  {
    Response(status, Some(JObject(map["success" := JBool(false), "error" := JStr(error)])))
  }

  /** The record built from a validated body; coordinates default to null. */
  function RowOf(v: JVal): (r: Row)
    requires v.JObject?
    requires forall i :: 0 <= i < |Required| ==> !FieldEmpty(v, Required[i])
    ensures r.status == "pending"
    ensures Some(r.senderId) == Lookup(v, "sender_id") && Some(r.content) == Lookup(v, "content")
    ensures Some(r.senderType) == Lookup(v, "sender_type") && Some(r.senderName) == Lookup(v, "sender_name")
    ensures Some(r.messageType) == Lookup(v, "message_type")
    ensures r.latitude == Lookup(v, "latitude").GetOr(JNull)
    ensures r.longitude == Lookup(v, "longitude").GetOr(JNull)
  {
    assert !FieldEmpty(v, Required[0]) && !FieldEmpty(v, Required[1]) && !FieldEmpty(v, Required[2]);
    assert !FieldEmpty(v, Required[3]) && !FieldEmpty(v, Required[4]);
    Row(v.fields["sender_id"], v.fields["sender_type"], v.fields["sender_name"],
        v.fields["message_type"], v.fields["content"],
        Lookup(v, "latitude").GetOr(JNull), Lookup(v, "longitude").GetOr(JNull), "pending")
  }

  /**
    One request. `body` is the decoded input; `insert` is the database's
    answer, the last insert id when `createMessage` succeeded and none when
    it failed.
  */
  function Handle(httpMethod: string, body: JVal, insert: Option<string>): (o: Outcome)
    ensures httpMethod == "OPTIONS" ==> o == Outcome(Response(200, None), None)
    ensures httpMethod != "OPTIONS" && httpMethod != "POST" ==>
              o == Outcome(Failure(405, "Método não permitido"), None)
    ensures httpMethod == "POST" && PhpEmpty(body) ==> o == Outcome(Failure(400, "Dados inválidos"), None)
    ensures o.inserted.Some? <==>
              httpMethod == "POST" && !PhpEmpty(body)
              && forall i :: 0 <= i < |Required| ==> !FieldEmpty(body, Required[i])
    ensures o.response.status == 200 && o.response.body.Some? <==> o.inserted.Some? && insert.Some?
    ensures o.inserted.Some? && insert.None? ==> o.response == Failure(400, "Erro ao salvar mensagem")
    ensures o.inserted.Some? ==> body.JObject? && o.inserted.value == RowOf(body)
  {
    if httpMethod == "OPTIONS" then Outcome(Response(200, None), None)
    else if httpMethod != "POST" then Outcome(Failure(405, "Método não permitido"), None)
    else if PhpEmpty(body) then Outcome(Failure(400, "Dados inválidos"), None)
    else match FirstMissing(body, Required)
      case Some(k) => Outcome(Failure(400, MissingField + Required[k]), None)
      case None =>
        assert body.JObject? by { assert !FieldEmpty(body, Required[0]); }
        var row := RowOf(body);
        match insert
        case None => Outcome(Failure(400, "Erro ao salvar mensagem"), Some(row))
        case Some(id) =>
          Outcome(Response(200, Some(JObject(map["success" := JBool(true),
                                                  "message" := JStr("Mensagem enviada com sucesso"),
                                                  "id" := JStr(id)]))), Some(row))
  }

  /**
    A rejected field is named in the error, it is the first required field
    in the checking order that is empty, and every field before it is filled.
  */
  lemma MissingFieldReported(body: JVal, insert: Option<string>)
    requires !PhpEmpty(body)
    requires exists i :: 0 <= i < |Required| && FieldEmpty(body, Required[i])
    ensures exists k :: 0 <= k < |Required| && FieldEmpty(body, Required[k])
              && (forall i :: 0 <= i < k ==> !FieldEmpty(body, Required[i]))
              && Handle("POST", body, insert) == Outcome(Failure(400, MissingField + Required[k]), None)
  {
    var k := FirstMissing(body, Required).value;
    assert FieldEmpty(body, Required[k]);
  }

  /**
    A successful request stores exactly the submitted fields, as pending,
    with the coordinates taken from the body or null, and returns the
    insert id.
  */
  lemma AcceptedRowCopiesBody(body: JVal, id: string)
    requires Handle("POST", body, Some(id)).inserted.Some?
    ensures var o := Handle("POST", body, Some(id));
            && o.response.status == 200
            && o.response.body.value.JObject?
            && o.response.body.value.fields["success"] == JBool(true)
            && o.response.body.value.fields["id"] == JStr(id)
            && o.inserted.value.status == "pending"
            && Some(o.inserted.value.content) == Lookup(body, "content")
            && Some(o.inserted.value.senderId) == Lookup(body, "sender_id")
            && Some(o.inserted.value.senderType) == Lookup(body, "sender_type")
            && Some(o.inserted.value.senderName) == Lookup(body, "sender_name")
            && Some(o.inserted.value.messageType) == Lookup(body, "message_type")
            && o.inserted.value.latitude == Lookup(body, "latitude").GetOr(JNull)
            && o.inserted.value.longitude == Lookup(body, "longitude").GetOr(JNull)
  {
  }

  /**
    PHP's `empty()` treats the string "0" as missing, so a message whose
    content is "0" is rejected even though it is a non-empty string and
    every other required field is filled.
  */
  lemma ZeroContentRejected(body: JVal, insert: Option<string>)
    requires body.JObject?
    requires forall i :: 0 <= i < 4 ==> !FieldEmpty(body, Required[i])
    requires Lookup(body, "content") == Some(JStr("0"))
    ensures Handle("POST", body, insert) == Outcome(Failure(400, MissingField + "content"), None)
  {
    assert Required[4] == "content";
    assert FieldEmpty(body, Required[4]);
    assert !PhpEmpty(body) by { assert "content" in body.fields; }
    var k := FirstMissing(body, Required);
    assert k.Some? && k.value == 4;
  }
}

=== FILE: session.dfy ===
/**
  The session fields both application variants keep on their application
  object, and the notifications their handlers raise.
*/
module Sessions {
  import opened Wrappers

  /** The `currentUser` object a successful login stores. */
  datatype SessionUser = SessionUser(id: string, name: string, kind: string)

  /** `currentUser`, `userType` and `isAuthenticated`. */
  datatype Session = Session(
    currentUser: Option<SessionUser>,
    userType: Option<string>,
    isAuthenticated: bool)

  /** The session fields as the constructor and `logout` leave them. */
  const SignedOut: Session := Session(None, None, false)

  /** A notification shown to the user by `showError` or `showSuccess`. */
  datatype Notice = Silent | ErrorNotice(text: string) | SuccessNotice(text: string)

  const FillAllFields: string := "Por favor, preencha todos os campos"
  const PasswordsDiffer: string := "As senhas não coincidem"
  const BadPoliceLogin: string := "ID ou código inválido"
  const BadCitizenLogin: string := "BI ou senha inválidos"

  /**
    `logout()`/`citizenLogout()` on the session: the authenticated flag is
    cleared and the current user and user type are set to null, whatever
    they were before.
  */
  function SignOut(s: Session): (r: Session)
    ensures !r.isAuthenticated && r.currentUser.None? && r.userType.None?
  {
    SignedOut
  }
}

=== FILE: store.dfy ===
/**
  The local store of the application in assets/js/unified.js: the police and
  citizen user lists, the append-only message list and the statistics record,
  with the operations that read and change them.

  Persistence to the browser's key-value storage is not modelled: every
  operation returns the new in-memory store, which is what the source then
  serialises.
*/
module Store {
  import opened Wrappers
  import Decimal

  /** A user record; police records carry `code`, citizen records `password`. */
  datatype User = User(
    id: string,
    name: string,
    code: Option<string>,
    password: Option<string>,
    email: Option<string>,
    phone: Option<string>,
    address: Option<string>,
    kind: string)

  datatype Users = Users(police: seq<User>, citizens: seq<User>)

  /** A stored message; `timestamp` stands for the ISO date as milliseconds. */
  datatype Message = Message(
    id: string,
    senderId: string,
    senderType: string,
    senderName: string,
    messageType: string,
    content: string,
    audioData: Option<string>,
    latitude: Option<real>,
    longitude: Option<real>,
    timestamp: int,
    status: string)

  /** The fields a caller of `addMessage` supplies. */
  datatype MessageInput = MessageInput(
    senderId: string,
    senderType: string,
    senderName: string,
    messageType: string,
    content: string,
    audioData: Option<string>,
    latitude: Option<real>,
    longitude: Option<real>)

  /** `total_messages` and the `messages_by_type` counters. */
  datatype Stats = Stats(total: int, byType: map<string, int>)

  datatype Store = Store(users: Users, messages: seq<Message>, stats: Stats)

  const Pending: string := "pending"

  /** The four message types the default statistics record counts. */
  const KnownTypes: seq<string> := ["sos", "location", "text", "audio"]

  const DefaultStats: Stats :=
    Stats(0, map["sos" := 0, "location" := 0, "text" := 0, "audio" := 0])

  function PoliceUser(id: string, code: string, name: string): User
  {
    User(id, name, None, None, None, None, None, "police").(code := Some(code))
  }

  function CitizenUser(id: string, password: string, name: string, email: string,
                       phone: string, address: string): User
  {
    User(id, name, None, Some(password), Some(email), Some(phone), Some(address), "citizen")
  }

  /** The users the application starts with when storage holds none. */
  const DefaultUsers: Users := Users(
    [PoliceUser("POL007", "CISP2007", "Agente Silva"),
     PoliceUser("POL008", "CISP2008", "Agente Santos")],
    [CitizenUser("123456789", "123456", "João Silva", "joao@email.com", "123456789", "Rua A, 123"),
     CitizenUser("987654321", "123456", "Maria Santos", "maria@email.com", "987654321", "Rua B, 456")])

  /** The store after construction with empty storage. */
  const InitialStore: Store := Store(DefaultUsers, [], DefaultStats)

  // ---------------------------------------------------------------------
  // addMessage

  /**
    The per-type counter update as written: `if (counter) counter++`, so a
    counter is bumped only when the key exists and its value is non-zero.
  */
  function BumpCounter(byType: map<string, int>, t: string): (r: map<string, int>)
    ensures r.Keys == byType.Keys
    ensures forall k :: k in r && k != t ==> r[k] == byType[k]
    ensures t in byType && byType[t] != 0 ==> r[t] == byType[t] + 1
    ensures !(t in byType && byType[t] != 0) ==> r == byType
  {
    if t in byType && byType[t] != 0 then byType[t := byType[t] + 1] else byType
  }

  /** The record `addMessage` builds from its input, clock and date. */
  function NewMessage(m: MessageInput, now: nat, stamp: int): Message
  {
    Message(Decimal.NatToString(now), m.senderId, m.senderType, m.senderName,
            m.messageType, m.content, m.audioData, m.latitude, m.longitude,
            stamp, Pending)
  }

  /** True when `msg` carries exactly the caller's fields. */
  predicate Carries(msg: Message, m: MessageInput)
  {
    && msg.senderId == m.senderId && msg.senderType == m.senderType
    && msg.senderName == m.senderName && msg.messageType == m.messageType
    && msg.content == m.content && msg.audioData == m.audioData
    && msg.latitude == m.latitude && msg.longitude == m.longitude
  }

  /**
    `addMessage`: append one pending message stamped with the clock, count
    it in the total and, as written, in its type's counter only when that
    counter is already non-zero. Returns the new store and the message.
  */
  function AddMessage(s: Store, m: MessageInput, now: nat, stamp: int): (r: (Store, Message))
    ensures Carries(r.1, m)
    ensures r.1.status == Pending && r.1.timestamp == stamp
    ensures Decimal.ParseNat(r.1.id) == Some(now)
    ensures r.0.messages == s.messages + [r.1]
    ensures r.0.stats.total == s.stats.total + 1
    ensures r.0.stats.byType.Keys == s.stats.byType.Keys
    ensures forall k :: k in s.stats.byType && s.stats.byType[k] == 0 ==> r.0.stats.byType[k] == 0
    ensures r.0.users == s.users
  {
    Decimal.ParseNatToString(now);
    var msg := NewMessage(m, now, stamp);
    var stats := Stats(s.stats.total + 1, BumpCounter(s.stats.byType, m.messageType));
    (Store(s.users, s.messages + [msg], stats), msg)
  }

  /** A batch of `addMessage` calls; clock and date values are given per call. */
  datatype Send = Send(input: MessageInput, now: nat, stamp: int)

  function AddAll(s: Store, sends: seq<Send>): Store
    decreases |sends|
  {
    if |sends| == 0 then s
    else AddAll(AddMessage(s, sends[0].input, sends[0].now, sends[0].stamp).0, sends[1..])
  }

  /** Sum of the four known per-type counters, a missing key counting 0. */
  function SumKnown(st: Stats): int
  {
    Get(st.byType, "sos") + Get(st.byType, "location") + Get(st.byType, "text") + Get(st.byType, "audio")
  }

  function Get(m: map<string, int>, k: string): int
  {
    if k in m then m[k] else 0
  }

  /**
    Starting from the default statistics, any number of `addMessage` calls
    leaves every per-type counter at 0 while the total counts each call.
  */
  lemma {:induction false} CountersStayZero(s: Store, sends: seq<Send>)
    requires s.stats.byType == DefaultStats.byType
    ensures AddAll(s, sends).stats.byType == DefaultStats.byType
    ensures AddAll(s, sends).stats.total == s.stats.total + |sends|
    ensures |AddAll(s, sends).messages| == |s.messages| + |sends|
    ensures AddAll(s, sends).messages[..|s.messages|] == s.messages
    decreases |sends|
  {
    if |sends| > 0 {
      var s1 := AddMessage(s, sends[0].input, sends[0].now, sends[0].stamp).0;
      assert s1.stats.byType == s.stats.byType;
      CountersStayZero(s1, sends[1..]);
      var t := AddAll(s1, sends[1..]);
      assert t.messages[..|s1.messages|] == s1.messages;
      assert t.messages[..|s.messages|] == s1.messages[..|s.messages|];
    }
  }

  /**
    Hence "the per-type counters sum to the total" is not an invariant of
    the code: from the default statistics (those of the initial store), one
    message already breaks it.
  */
  lemma SumDiffersFromTotal(s: Store, sends: seq<Send>)
    requires s.stats == DefaultStats
    requires |sends| > 0
    ensures SumKnown(AddAll(s, sends).stats) == 0
    ensures AddAll(s, sends).stats.total == |sends|
    ensures SumKnown(AddAll(s, sends).stats) != AddAll(s, sends).stats.total
  {
    CountersStayZero(s, sends);
  }

  /** The evidently intended update: bump the counter of every known type. */
  function BumpCounterFixed(byType: map<string, int>, t: string): (r: map<string, int>)
    ensures r.Keys == byType.Keys
    ensures forall k :: k in r && k != t ==> r[k] == byType[k]
    ensures t in byType ==> r[t] == byType[t] + 1
  {
    if t in byType then byType[t := byType[t] + 1] else byType
  }

  /** `addMessage` with the corrected counter update. */
  function AddMessageFixed(s: Store, m: MessageInput, now: nat, stamp: int): (r: (Store, Message))
    ensures r.1 == AddMessage(s, m, now, stamp).1
    ensures r.0.messages == AddMessage(s, m, now, stamp).0.messages
    ensures r.0.stats.total == s.stats.total + 1
    ensures r.0.stats.byType == BumpCounterFixed(s.stats.byType, m.messageType)
  {
    var r := AddMessage(s, m, now, stamp);
    (r.0.(stats := Stats(s.stats.total + 1, BumpCounterFixed(s.stats.byType, m.messageType))), r.1)
  }

  function AddAllFixed(s: Store, sends: seq<Send>): Store
    decreases |sends|
  {
    if |sends| == 0 then s
    else AddAllFixed(AddMessageFixed(s, sends[0].input, sends[0].now, sends[0].stamp).0, sends[1..])
  }

  /** Number of messages of type `t` in a batch. */
  function CountType(sends: seq<Send>, t: string): nat
    decreases |sends|
  {
    if |sends| == 0 then 0
    else (if sends[0].input.messageType == t then 1 else 0) + CountType(sends[1..], t)
  }

  /**
    With the corrected update, each known counter grows by exactly the
    number of messages of its type and the total by the number of messages.
  */
  lemma {:induction false} FixedCountersCount(s: Store, sends: seq<Send>, t: string)
    requires t in s.stats.byType
    ensures t in AddAllFixed(s, sends).stats.byType
    ensures AddAllFixed(s, sends).stats.byType[t] == s.stats.byType[t] + CountType(sends, t)
    ensures AddAllFixed(s, sends).stats.byType.Keys == s.stats.byType.Keys
    ensures AddAllFixed(s, sends).stats.total == s.stats.total + |sends|
    decreases |sends|
  {
    if |sends| > 0 {
      var s1 := AddMessageFixed(s, sends[0].input, sends[0].now, sends[0].stamp).0;
      FixedCountersCount(s1, sends[1..], t);
    }
  }

  predicate AllKnown(sends: seq<Send>)
  {
    forall i :: 0 <= i < |sends| ==> sends[i].input.messageType in KnownTypes
  }

  lemma {:induction false} KnownCountsSum(sends: seq<Send>)
    requires AllKnown(sends)
    ensures CountType(sends, "sos") + CountType(sends, "location")
            + CountType(sends, "text") + CountType(sends, "audio") == |sends|
    decreases |sends|
  {
    if |sends| > 0 {
      assert sends[0].input.messageType in KnownTypes;
      assert AllKnown(sends[1..]) by {
        forall i | 0 <= i < |sends[1..]| ensures sends[1..][i].input.messageType in KnownTypes {
          assert sends[1..][i] == sends[i + 1];
        }
      }
      KnownCountsSum(sends[1..]);
    }
  }

  /**
    The intended invariant holds for the corrected update: from the initial
    store, when every message has a known type, the counters sum to the total.
  */
  lemma FixedSumEqualsTotal(sends: seq<Send>)
    requires AllKnown(sends)
    ensures SumKnown(AddAllFixed(InitialStore, sends).stats) == AddAllFixed(InitialStore, sends).stats.total
  {
    FixedCountersCount(InitialStore, sends, "sos");
    FixedCountersCount(InitialStore, sends, "location");
    FixedCountersCount(InitialStore, sends, "text");
    FixedCountersCount(InitialStore, sends, "audio");
    KnownCountsSum(sends);
  }

  // ---------------------------------------------------------------------
  // findUser and verifyCredentials

  /** The list `findUser` searches: police for `'police'`, citizens otherwise. */
  function ListFor(users: Users, role: string): seq<User>
  {
    if role == "police" then users.police else users.citizens
  }

  /** `Array.prototype.find` by id: the first user whose id matches. */
  function FindFirst(list: seq<User>, id: string): (r: Option<User>)
    ensures r.None? <==> forall i :: 0 <= i < |list| ==> list[i].id != id
    ensures r.Some? ==> exists i :: 0 <= i < |list| && list[i] == r.value
                         && r.value.id == id
                         && forall j :: 0 <= j < i ==> list[j].id != id
    decreases |list|
  {
    if |list| == 0 then None
    else if list[0].id == id then Some(list[0])
    else
      var r := FindFirst(list[1..], id);
      assert forall i :: 0 < i < |list| ==> list[i] == list[1..][i - 1];
      r
  }

  /** `findUser(id, type)`. */
  function FindUser(users: Users, id: string, role: string): (r: Option<User>)
    ensures r.None? <==> forall i :: 0 <= i < |ListFor(users, role)| ==> ListFor(users, role)[i].id != id
    ensures r.Some? ==> r.value.id == id && r.value in ListFor(users, role)
  {
    FindFirst(ListFor(users, role), id)
  }

  /** The stored secret a role is checked against. */
  function SecretOf(u: User, role: string): Option<string>
  {
    if role == "police" then u.code else u.password
  }

  /**
    `verifyCredentials(id, password, type)`: false for an unknown user,
    otherwise the first user with that id must hold the given secret, in
    `code` for police and in `password` for every other role.
  */
  function VerifyCredentials(users: Users, id: string, secret: string, role: string): (ok: bool)
    ensures (forall i :: 0 <= i < |ListFor(users, role)| ==> ListFor(users, role)[i].id != id) ==> !ok
    ensures ok <==> FindUser(users, id, role).Some?
                    && SecretOf(FindUser(users, id, role).value, role) == Some(secret)
  {
    match FindUser(users, id, role)
    case None => false
    case Some(u) => if role == "police" then u.code == Some(secret) else u.password == Some(secret)
  }

  // ---------------------------------------------------------------------
  // Citizen registration

  /** The fields of the registration form, as `FormData` delivers them. */
  datatype RegisterForm = RegisterForm(
    bi: string,
    name: string,
    email: string,
    phone: string,
    address: string,
    password: string,
    confirm: string)

  datatype RegisterError = PasswordMismatch | DuplicateBi

  function CitizenFrom(f: RegisterForm): User
  {
    CitizenUser(f.bi, f.password, f.name, f.email, f.phone, f.address)
  }

  /**
    The check-then-append of `handleCitizenRegister`: a confirmation
    mismatch is rejected first, then an already registered BI; otherwise
    one citizen is appended and nothing else changes.
  */
  function RegisterCitizen(s: Store, f: RegisterForm): (r: Result<Store, RegisterError>)
    ensures f.password != f.confirm ==> r == Err(PasswordMismatch)
    ensures f.password == f.confirm && FindUser(s.users, f.bi, "citizen").Some? ==> r == Err(DuplicateBi)
    ensures r.Ok? <==> f.password == f.confirm && FindUser(s.users, f.bi, "citizen").None?
    ensures r.Ok? ==> |r.value.users.citizens| == |s.users.citizens| + 1
                      && r.value.users.citizens[..|s.users.citizens|] == s.users.citizens
    ensures r.Ok? ==> r.value.users.police == s.users.police
    ensures r.Ok? ==> r.value.messages == s.messages && r.value.stats == s.stats
    ensures r.Ok? ==> var u := r.value.users.citizens[|s.users.citizens|];
                      u.kind == "citizen" && u.id == f.bi && u.password == Some(f.password)
                      && u.name == f.name && u.email == Some(f.email) && u.phone == Some(f.phone)
                      && u.address == Some(f.address) && u.code.None?
  {
    if f.password != f.confirm then Err(PasswordMismatch)
    else if FindUser(s.users, f.bi, "citizen").Some? then Err(DuplicateBi)
    else Ok(s.(users := s.users.(citizens := s.users.citizens + [CitizenFrom(f)])))
  }

  /**
    After a successful registration the citizen can be found by BI with the
    submitted fields and logs in with the submitted password.
  */
  lemma RegisteredCitizenFound(s: Store, f: RegisterForm)
    requires RegisterCitizen(s, f).Ok?
    ensures FindUser(RegisterCitizen(s, f).value.users, f.bi, "citizen") == Some(CitizenFrom(f))
    ensures VerifyCredentials(RegisterCitizen(s, f).value.users, f.bi, f.password, "citizen")
  {
    var cs := s.users.citizens;
    var cs' := cs + [CitizenFrom(f)];
    assert forall i :: 0 <= i < |cs| ==> cs[i].id != f.bi;
    assert cs' == RegisterCitizen(s, f).value.users.citizens;
    FindFirstAppend(cs, CitizenFrom(f), f.bi);
  }

  lemma {:induction false} FindFirstAppend(list: seq<User>, u: User, id: string)
    requires forall i :: 0 <= i < |list| ==> list[i].id != id
    requires u.id == id
    ensures FindFirst(list + [u], id) == Some(u)
    decreases |list|
  {
    if |list| > 0 {
      assert (list + [u])[1..] == list[1..] + [u];
      FindFirstAppend(list[1..], u, id);
    }
  }

  /** Registering the same BI again always fails and changes nothing. */
  lemma RegisterTwiceFails(s: Store, f: RegisterForm, g: RegisterForm)
    requires RegisterCitizen(s, f).Ok?
    requires g.bi == f.bi
    ensures RegisterCitizen(RegisterCitizen(s, f).value, g).Err?
  {
    RegisteredCitizenFound(s, f);
  }

  // ---------------------------------------------------------------------
  // loadMessages: filter, then newest first

  /** `messages.filter(msg => msg.message_type === filter)`. */
  function FilterType(ms: seq<Message>, t: string): (r: seq<Message>)
    ensures forall m :: multiset(r)[m] == if m.messageType == t then multiset(ms)[m] else 0
    ensures forall i :: 0 <= i < |r| ==> r[i].messageType == t
    decreases |ms|
  {
    if |ms| == 0 then []
    else
      assert ms == [ms[0]] + ms[1..];
      if ms[0].messageType == t then [ms[0]] + FilterType(ms[1..], t)
      else FilterType(ms[1..], t)
  }

  /** Ordered newest first. */
  predicate NewestFirst(ms: seq<Message>)
  {
    forall i, j :: 0 <= i < j < |ms| ==> ms[i].timestamp >= ms[j].timestamp
  }

  /**
    Insert `m` into a newest-first list before the first entry that is not
    newer than it; inserting the earlier element of the original order
    this way keeps equal timestamps in their original order.
  */
  function Insert(m: Message, ms: seq<Message>): (r: seq<Message>)
    ensures multiset(r) == multiset(ms) + multiset{m}
    decreases |ms|
  {
    if |ms| == 0 || ms[0].timestamp <= m.timestamp then [m] + ms
    else
      assert ms == [ms[0]] + ms[1..];
      [ms[0]] + Insert(m, ms[1..])
  }

  lemma {:induction false} InsertKeepsOrder(m: Message, ms: seq<Message>)
    requires NewestFirst(ms)
    ensures NewestFirst(Insert(m, ms))
    decreases |ms|
  {
    if |ms| == 0 || ms[0].timestamp <= m.timestamp {
      var r := [m] + ms;
      assert forall j :: 0 < j < |r| ==> r[j] == ms[j - 1];
    } else {
      var rest := Insert(m, ms[1..]);
      InsertKeepsOrder(m, ms[1..]);
      var r := [ms[0]] + rest;
      forall j | 0 < j < |r| ensures ms[0].timestamp >= r[j].timestamp {
        assert r[j] in multiset(rest);
        assert r[j] in multiset(ms[1..]) || r[j] == m;
      }
    }
  }

  /**
    The comparator `new Date(b.timestamp) - new Date(a.timestamp)` under the
    stable sort of `Array.prototype.sort`: newest first, ties kept in order.
  */
  function SortNewestFirst(ms: seq<Message>): (r: seq<Message>)
    ensures NewestFirst(r)
    ensures multiset(r) == multiset(ms)
    decreases |ms|
  {
    if |ms| == 0 then []
    else
      assert ms == [ms[0]] + ms[1..];
      InsertKeepsOrder(ms[0], SortNewestFirst(ms[1..]));
      Insert(ms[0], SortNewestFirst(ms[1..]))
  }

  /**
    The result of `loadMessages(filter)`: the list shown, and the stored
    message list afterwards. With `'all'` the stored array itself is sorted
    in place; a filtered list is a fresh array, so the store is untouched.
  */
  datatype Loaded = Loaded(shown: seq<Message>, stored: seq<Message>)

  function LoadMessages(s: Store, filter: string): (r: Loaded)
    ensures NewestFirst(r.shown)
    ensures filter == "all" ==> multiset(r.shown) == multiset(s.messages) && r.stored == r.shown
    ensures filter != "all" ==> r.stored == s.messages
    ensures filter != "all" ==>
              forall m :: multiset(r.shown)[m] == if m.messageType == filter then multiset(s.messages)[m] else 0
  {
    if filter == "all" then
      var sorted := SortNewestFirst(s.messages);
      Loaded(sorted, sorted)
    else
      Loaded(SortNewestFirst(FilterType(s.messages, filter)), s.messages)
  }

  /** A filtered load shows exactly the stored messages of that type. */
  lemma LoadFilteredMembers(s: Store, filter: string, m: Message)
    requires filter != "all"
    ensures m in LoadMessages(s, filter).shown <==> m in s.messages && m.messageType == filter
  {
    var r := LoadMessages(s, filter);
    assert m in r.shown <==> multiset(r.shown)[m] > 0;
    assert m in s.messages <==> multiset(s.messages)[m] > 0;
  }

  /** Loading keeps the store's users and statistics, and its message count. */
  lemma LoadAllPermutes(s: Store)
    ensures |LoadMessages(s, "all").stored| == |s.messages|
    ensures forall m :: m in LoadMessages(s, "all").stored <==> m in s.messages
  {
    var r := LoadMessages(s, "all");
    assert |r.stored| == |multiset(r.stored)| == |multiset(s.messages)| == |s.messages|;
    forall m ensures m in r.stored <==> m in s.messages {
      assert m in r.stored <==> multiset(r.stored)[m] > 0;
      assert m in s.messages <==> multiset(s.messages)[m] > 0;
    }
  }
}

=== FILE: unified_app.dfy ===
/**
  The handlers of the local-storage application (assets/js/unified.js) that
  combine the store, the session fields and the navigator: access selection,
  police and citizen login, citizen registration and logout.

  The panel loaders a screen change triggers (statistics, list rendering,
  the geolocation request) are presentation or platform calls and are not
  composed into these transitions.
*/
module UnifiedApp {
  import opened Wrappers
  import opened Sessions
  import Store
  import Navigator

  datatype App = App(store: Store.Store, session: Session, nav: Navigator.Nav)

  /** The application right after construction with empty storage. */
  const InitialApp: App := App(Store.InitialStore, SignedOut, Navigator.Initial)

  const DuplicateBiText: string := "BI já cadastrado"
  const RegisteredText: string := "Cadastro realizado com sucesso! Você pode fazer login agora."

  /**
    `handleAccessSelection`: remember the chosen access type and open the
    matching login screen; an unknown type changes only `userType`.
  */
  function SelectAccess(a: App, dom: set<string>, access: string): (r: App)
    ensures r.session.userType == Some(access)
    ensures r.store == a.store
    ensures access == "police" && Navigator.PoliceLogin in dom ==> r.nav.current == Navigator.PoliceLogin
    ensures access == "citizen" && Navigator.CitizenLogin in dom ==> r.nav.current == Navigator.CitizenLogin
    ensures access != "police" && access != "citizen" ==> r.nav == a.nav
  {
    var a1 := a.(session := a.session.(userType := Some(access)));
    if access == "police" then a1.(nav := Navigator.ShowScreen(a.nav, dom, Navigator.PoliceLogin))
    else if access == "citizen" then a1.(nav := Navigator.ShowScreen(a.nav, dom, Navigator.CitizenLogin))
    else a1
  }

  /**
    The login flow shared by both roles: reject an empty field, then check
    the credentials against the role's user list; on success record the
    user, set the authenticated flag and open the role's landing screen.
    A rejected attempt changes nothing.
  */
  function Login(a: App, dom: set<string>, id: string, secret: string, role: string,
                 landing: string, failure: string): (r: (App, Notice))
    ensures id == "" || secret == "" ==> r == (a, ErrorNotice(FillAllFields))
    ensures id != "" && secret != "" && !Store.VerifyCredentials(a.store.users, id, secret, role) ==>
              r == (a, ErrorNotice(failure))
    ensures id != "" && secret != "" && Store.VerifyCredentials(a.store.users, id, secret, role) ==>
              && r.1 == Silent
              && r.0.session.isAuthenticated
              && r.0.session.userType == a.session.userType
              && r.0.session.currentUser.Some?
              && r.0.session.currentUser.value.id == id
              && r.0.session.currentUser.value.kind == role
              && (exists u :: u in Store.ListFor(a.store.users, role) && u.id == id
                              && u.name == r.0.session.currentUser.value.name
                              && Store.SecretOf(u, role) == Some(secret))
              && (landing in dom ==> r.0.nav.current == landing)
    ensures r.0.store == a.store
  {
    if id == "" || secret == "" then (a, ErrorNotice(FillAllFields))
    else if Store.VerifyCredentials(a.store.users, id, secret, role) then
      var u := Store.FindUser(a.store.users, id, role).value;
      var session := a.session.(currentUser := Some(SessionUser(id, u.name, role)), isAuthenticated := true);
      (App(a.store, session, Navigator.ShowScreen(a.nav, dom, landing)), Silent)
    else (a, ErrorNotice(failure))
  }

  /** `handlePoliceLogin`: police list, `code` field, the police panel. */
  function PoliceLogin(a: App, dom: set<string>, id: string, code: string): (r: (App, Notice))
    ensures r.0.session.isAuthenticated && r.0.session != a.session ==>
              exists u :: u in a.store.users.police && u.id == id && u.code == Some(code)
    ensures r.0 == a || r.0.session.isAuthenticated
  {
    Login(a, dom, id, code, "police", Navigator.PolicePanel, BadPoliceLogin)
  }

  /** `handleCitizenLogin`: citizen list, `password` field, the citizen main screen. */
  function CitizenLogin(a: App, dom: set<string>, bi: string, password: string): (r: (App, Notice))
    ensures r.0.session.isAuthenticated && r.0.session != a.session ==>
              exists u :: u in a.store.users.citizens && u.id == bi && u.password == Some(password)
    ensures r.0 == a || r.0.session.isAuthenticated
  {
    Login(a, dom, bi, password, "citizen", Navigator.CitizenMain, BadCitizenLogin)
  }

  /**
    The demo credentials work on a fresh application and a wrong code is
    refused with the application left as it was.
  */
  lemma DemoPoliceLogin(dom: set<string>)
    requires Navigator.PolicePanel in dom
    ensures PoliceLogin(InitialApp, dom, "POL007", "CISP2007").0.session.isAuthenticated
    ensures PoliceLogin(InitialApp, dom, "POL007", "CISP2007").0.nav.current == Navigator.PolicePanel
    ensures PoliceLogin(InitialApp, dom, "POL007", "WRONG") == (InitialApp, ErrorNotice(BadPoliceLogin))
  {
    var users := InitialApp.store.users;
    assert users.police[0].id == "POL007";
    assert Store.FindUser(users, "POL007", "police") == Some(users.police[0]);
  }

  /**
    `handleCitizenRegister`: on success the citizen is appended and, when
    the redirect timer fires, the citizen login screen is shown (the delay
    itself is not modelled). A failure leaves the application unchanged.
  */
  function Register(a: App, dom: set<string>, f: Store.RegisterForm): (r: (App, Notice))
    ensures f.password != f.confirm ==> r == (a, ErrorNotice(PasswordsDiffer))
    ensures f.password == f.confirm && Store.FindUser(a.store.users, f.bi, "citizen").Some? ==>
              r == (a, ErrorNotice(DuplicateBiText))
    ensures r.1 == SuccessNotice(RegisteredText) ==>
              && Store.RegisterCitizen(a.store, f).Ok?
              && r.0.store == Store.RegisterCitizen(a.store, f).value
              && r.0.session == a.session
              && (Navigator.CitizenLogin in dom ==> r.0.nav.current == Navigator.CitizenLogin)
    ensures r.1 != SuccessNotice(RegisteredText) ==> r.0 == a
  {
    match Store.RegisterCitizen(a.store, f)
    case Err(e) => (a, ErrorNotice(if e.PasswordMismatch? then PasswordsDiffer else DuplicateBiText))
    case Ok(s) => (App(s, a.session, Navigator.ShowScreen(a.nav, dom, Navigator.CitizenLogin)),
                   SuccessNotice(RegisteredText))
  }

  /**
    `logout()` and `citizenLogout()` (the menu toggle aside): sign out and
    show the access-selection screen; the store is untouched.
  */
  function Logout(a: App, dom: set<string>): (r: App)
    ensures !r.session.isAuthenticated && r.session.currentUser.None? && r.session.userType.None?
    ensures r.store == a.store
    ensures Navigator.AccessSelection in dom ==> r.nav.current == Navigator.AccessSelection
  {
    App(a.store, SignOut(a.session), Navigator.ShowScreen(a.nav, dom, Navigator.AccessSelection))
  }

  /**
    A newly registered citizen can log in with the submitted BI and
    password, and a later logout ends the session again.
  */
  lemma RegisterLoginLogout(a: App, dom: set<string>, f: Store.RegisterForm)
    requires Store.RegisterCitizen(a.store, f).Ok?
    requires f.bi != "" && f.password != ""
    ensures var a1 := Register(a, dom, f).0;
            var a2 := CitizenLogin(a1, dom, f.bi, f.password).0;
            a2.session.isAuthenticated && a2.session.currentUser == Some(SessionUser(f.bi, f.name, "citizen"))
            && !Logout(a2, dom).session.isAuthenticated
  {
    Store.RegisteredCitizenFound(a.store, f);
  }
}

=== FILE: variants.dfy ===
/**
  How the two application variants answer the same login: the demo police
  credentials work in both, but the citizen password the mock variant
  accepts is not the one the local-storage variant seeds.
*/
module Variants {
  import opened Wrappers
  import opened Sessions
  import Store
  import Navigator
  import UnifiedApp
  import MockApp

  /** Both variants accept the demo police credentials on a fresh start. */
  lemma PoliceDemoAgrees(dom: set<string>)
    requires Navigator.PolicePanel in dom
    ensures UnifiedApp.PoliceLogin(UnifiedApp.InitialApp, dom, "POL007", "CISP2007").0.session.isAuthenticated
    ensures MockApp.PoliceLogin(MockApp.InitialMock, dom, "POL007", "CISP2007").0.session.isAuthenticated
  {
    UnifiedApp.DemoPoliceLogin(dom);
  }

  /**
    The mock variant's citizen demo pair is refused by the local-storage
    variant, whose seeded citizen `123456789` has password `123456`; that
    pair is in turn refused by the mock variant.
  */
  lemma CitizenDemoDiffers(dom: set<string>)
    ensures MockApp.CitizenLogin(MockApp.InitialMock, dom, "123456789", "senha123").1 == Silent
    ensures UnifiedApp.CitizenLogin(UnifiedApp.InitialApp, dom, "123456789", "senha123")
              == (UnifiedApp.InitialApp, ErrorNotice(BadCitizenLogin))
    ensures UnifiedApp.CitizenLogin(UnifiedApp.InitialApp, dom, "123456789", "123456").1 == Silent
    ensures MockApp.CitizenLogin(MockApp.InitialMock, dom, "123456789", "123456").1 == ErrorNotice(BadCitizenLogin)
  {
    var users := UnifiedApp.InitialApp.store.users;
    assert users.citizens[0].id == "123456789";
    assert Store.FindUser(users, "123456789", "citizen") == Some(users.citizens[0]);
  }
}

=== FILE: wrappers.dfy ===
/** Failure-carrying datatypes shared by every module of the model. */
module Wrappers {

  /** A value that may be absent: JavaScript's `null`/`undefined`, PHP's `null`. */
  datatype Option<+T> = None | Some(value: T)
  {
    function GetOr(default: T): T
    {
      match this
      case Some(v) => v
      case None => default
    }
  }

  /** The outcome of an operation that can fail with an error value. */
  datatype Result<+R, +E> = Ok(value: R) | Err(error: E)
}
